=== FILE: README.md ===
# rawIDE in Dafny

A Dafny model of the editing core of rawIDE (`src/rawIDE.py`), a small
terminal editor that has a modal key loop and `:` commands. The model
covers four parts:

- **Document** (`buffer.dfy`, module `TextBuffer`): the `Buffer`, which
  holds:
  - a list of lines;
  - a cursor (`cx` column, `cy` line);
  - a dirty flag and an optional file name;
  - two stacks of `(lines, cx, cy)` snapshots for linear undo and redo,
    with the undo stack capped at `undo_limit` (200 by default).

  Every editing primitive records the current state and empties the redo
  stack before it changes anything. Backspace at the document start does
  nothing at all, and pushes nothing either. Every operation is a pure
  function from the old buffer to the new one.
- **File format** (`lineformat.dfy`, module `LineFormat`):
  - saving writes `'\n'.join(lines)`;
  - loading uses Python's `str.splitlines`, with its full set of boundary
    characters and `"\r\n"` counted as one boundary;
  - an empty result becomes one empty line.

  The module proves exactly when loading gives back what was saved.
- **History properties** (`history.dfy`, module `History`), each proved as
  a lemma:
  - undo reverts an edit;
  - undo and redo are mutually inverse;
  - n undos revert n edits as long as the cap is not reached;
  - at the cap the oldest snapshot is evicted;
  - an edit discards the redo stack;
  - backspace undoes newline and typing, and the arrow moves undo each
    other.
- **Editor** (`viewport.dfy`, `commands.dfy`, `modes.dfy`, `editor.dfy`):
  - `ensure_cursor_visible` keeps the cursor inside a text window of
    height − 2 rows and width − 1 columns.
  - `handle_command` parses and decides the `:` command line, whitespace
    tokenising included. It returns the decision to continue together with
    the action to carry out. `RawIDE.quit` is never called in the program;
    its test, which the `q` branch repeats inline with a different message,
    is modelled as `Commands.QuitAllowed` and related to that branch.
  - `compile_and_run` is modelled as three decisions: whether to run, what
    to save first, and which pipeline the lower-cased extension selects.
  - The two-mode key machine that `run_curses` and `run_dumb` share. The
    source calls the modes "command" and "editor"; the model calls them
    `Navigation` and `Insertion`.
  - One turn of the loop: scroll, handle a key, and at a `:` prompt carry
    out the command.

The model takes every outcome from the outside world as a parameter:
- whether a file could be read, and its text (`Io.read`);
- whether a write succeeded (`Io.writeOk`, `saveOk`);
- the compiler's exit status (`compileStatus`);
- the terminal size;
- the decoded key and the typed command line.

## Model

| member | source | states |
|---|---|---|
| LineFormat.SplitLines | src/rawIDE.py:206 | no line contains a boundary character, and the text yields no lines exactly when it is empty |
| LineFormat.Reload | src/rawIDE.py:206-208 | a loaded file always yields at least one boundary-free line; non-empty text yields exactly its splitlines |
| LineFormat.SplitAtBoundary | src/rawIDE.py:206 | one boundary after a boundary-free prefix ends the first line and the rest is split on its own; for `'\r'` this holds when no `'\n'` follows |
| LineFormat.SplitAtCrLf | src/rawIDE.py:206 | `"\r\n"` after a boundary-free prefix is a single boundary: it ends the first line and starts no empty one |
| LineFormat.Join | src/rawIDE.py:224 | the saved text starts with the first line, a `'\n'` follows it when more lines come, and its length is the lines' total plus one separator per pair |
| LineFormat.SplitAfterJoin | src/rawIDE.py:206-224 | splitting saved lines gives them back, except that a final empty line is lost |
| LineFormat.ReloadAfterJoin | src/rawIDE.py:206-224 | save then load reproduces a boundary-free document if and only if it is one line or its last line is non-empty |
| LineFormat.CarriageReturnSplitsLine | src/rawIDE.py:206-224 | a `'\r'` saved inside a line comes back as a line break: one line becomes two, or one when nothing follows the `'\r'` |
| LineFormat.JoinAfterSplit | src/rawIDE.py:206-224 | text whose only boundaries are single `'\n'`, and which does not end in `'\n'`, is reproduced by load then save |
| TextBuffer.New | src/rawIDE.py:69-79 | a new buffer is valid, clean, has its cursor at (0, 0) and empty stacks; no lines becomes one empty line |
| TextBuffer.Push | src/rawIDE.py:97-102 | a snapshot is appended; the oldest entry is dropped only when the stack was full, so a stack within the limit stays within it |
| TextBuffer.BeginEdit | src/rawIDE.py:97-106 | the current state is recorded and redo is emptied; text, cursor, name and dirty flag are untouched |
| TextBuffer.Restore | src/rawIDE.py:88-95 | the snapshot's lines and cursor become current and the buffer is dirty; name and both stacks are untouched, and a restorable snapshot leaves the buffer valid |
| TextBuffer.Undo | src/rawIDE.py:109-117 | succeeds if and only if the undo stack is non-empty, and otherwise changes nothing; on success the top snapshot becomes current, the old state is pushed onto redo, and the buffer is dirty |
| TextBuffer.Redo | src/rawIDE.py:119-127 | the mirror image of Undo: the redo top becomes current and the old state is pushed onto undo |
| TextBuffer.InsertChar | src/rawIDE.py:130-137 | the text lands at the cursor, with the line's prefix and suffix and all other lines kept; the cursor advances by its length; the state is recorded and the buffer is dirty |
| TextBuffer.Backspace | src/rawIDE.py:139-160 | no effect at (0, 0); otherwise either the character before the cursor is removed, or the line is joined onto the previous one with the cursor at the seam; the state is recorded |
| TextBuffer.Newline | src/rawIDE.py:162-173 | the line splits at the cursor into two lines whose concatenation is the old line; the cursor moves to the start of the second; the other lines are kept |
| TextBuffer.MoveLeft | src/rawIDE.py:176-181 | moves one column left, or to the end of the previous line; only the cursor changes |
| TextBuffer.MoveRight | src/rawIDE.py:183-188 | moves one column right, or to the start of the next line; stays put at the document end |
| TextBuffer.MoveUp | src/rawIDE.py:190-193 | moves one line up, clamping the column to that line's length |
| TextBuffer.MoveDown | src/rawIDE.py:195-198 | moves one line down, clamping the column to that line's length |
| TextBuffer.Open | src/rawIDE.py:200-213 | the state is always recorded first; an unreadable file leaves the text as it was; a readable one shows its reloaded lines, clean, from (0, 0), under the new name |
| TextBuffer.Save | src/rawIDE.py:215-226 | fails with no name if and only if neither an argument nor a stored name exists; a successful write stores the joined lines, takes the name and clears the dirty flag, leaving text and stacks alone |
| History.Apply | src/rawIDE.py:130-173 | every edit records the pre-edit state and clears redo, except backspace at the document start, which changes nothing; the undo stack grows by at most one |
| History.UndoRevertsEdit | src/rawIDE.py:109-117 | one undo after a recording edit restores the text, cursor and undo stack, with the edited state on redo |
| History.UndoingAllEditsRestores | src/rawIDE.py:97-117 | after any run of edits that stays within the limit, as many undos as snapshots were pushed restore the original text and undo stack |
| History.EditAtCapacityDropsOldest | src/rawIDE.py:97-102 | at the limit an edit evicts the oldest snapshot and the stack stays at the limit |
| History.NoRedoAfterEdit | src/rawIDE.py:104-106 | after a recording edit there is nothing to redo |
| History.UndoThenRedo | src/rawIDE.py:109-127 | redo right after undo gives back the identical buffer, stacks included, except that it is now dirty |
| History.RedoThenUndo | src/rawIDE.py:109-127 | undo right after redo gives back the identical buffer, except that it is now dirty |
| History.BackspaceUndoesNewline | src/rawIDE.py:139-173 | backspace right after newline restores the lines and the cursor |
| History.BackspaceUndoesTyping | src/rawIDE.py:130-160 | backspace right after typing one character restores the lines and the cursor |
| History.RightUndoesLeft | src/rawIDE.py:176-188 | right after left returns to the same buffer everywhere except the document start |
| History.LeftUndoesRight | src/rawIDE.py:176-188 | left after right returns to the same buffer everywhere except the document end |
| History.DownUndoesUp | src/rawIDE.py:190-198 | down after up returns to the same buffer when the column fits the line above |
| History.UpUndoesDown | src/rawIDE.py:190-198 | up after down returns to the same buffer when the column fits the line below |
| History.OpenAfterSave | src/rawIDE.py:200-226 | a successful save followed by opening the written text reproduces a boundary-free document if and only if it is one line or its last line is non-empty |
| History.SplitTypeUndoUndo | src/rawIDE.py:109-173 | the worked example: split `ab\|cd`, type `xy`, then undo twice, passes through the expected lines and cursors |
| Viewport.Follow | src/rawIDE.py:570-579 | on one axis the new origin puts the position inside the window, and an already visible position leaves the origin alone |
| Viewport.EnsureCursorVisible | src/rawIDE.py:569-579 | on a terminal of at least 3 rows and 2 columns the cursor is inside the text window afterwards, and nothing scrolls if it already was |
| Viewport.FollowIsMinimal | src/rawIDE.py:570-574 | the scroll is the smallest move that makes the position visible |
| Viewport.EnsureVisibleIdempotent | src/rawIDE.py:569-579 | a second call for the same cursor does not scroll |
| Viewport.NoScrollWhenDocumentFits | src/rawIDE.py:570-574 | a window at the top of a buffer whose lines all fit in the text rows is never scrolled vertically, wherever the cursor is |
| Viewport.TwentyFourRowExample | src/rawIDE.py:569-574 | on the default 24-row terminal, cursor line 50 scrolls a top-aligned window to start at line 29 |
| Commands.Tokens | src/rawIDE.py:425-430 | every token is a non-empty run without whitespace, and there are no tokens exactly when the line is all whitespace |
| Commands.TokensKeepAllButSpace | src/rawIDE.py:425-430 | the tokens, concatenated, are the line with its whitespace removed |
| Commands.TokensAfterBlank | src/rawIDE.py:425-430 | a leading whitespace character of any kind (space, tab, newline, form feed, …) changes nothing in the words |
| Commands.TokensOfUnwords | src/rawIDE.py:425-430 | words typed with single spaces between them tokenise back to exactly those words |
| Commands.ParseWords | src/rawIDE.py:428-507 | the command is blank exactly for no words; it is `w`, `wq`, `q`, `r`, `open`, `cd`, `mkdir`, `ls` or `help` exactly when the first word is; `w`, `open`, `cd` and `mkdir` take the second word, when there is one, as their argument; `ls` lists the second word, or `.` without one; `q` is forced exactly when the second word is `!`; an unknown command carries its word |
| Commands.Decide | src/rawIDE.py:431-509 | only `wq` on a named buffer and an allowed `q` end the session; a blank line does nothing; `w name` saves as name; `w` and `wq` save under the buffer's name, or ask for one; a refused `q` warns about unsaved changes; `r` compiles and runs; `open`, `cd` and `mkdir` act on their argument or show their usage; `ls` lists its argument; `help` shows help; an unknown word is reported |
| Commands.HandleCommand | src/rawIDE.py:422-509 | the session ends if and only if the first word is `q` (with `!` as second word, or no unsaved changes) or is `wq` on a named buffer; an all-whitespace line does nothing |
| Commands.QuitAllowed | src/rawIDE.py:318-322 | quitting is refused exactly when there are unsaved changes and no force |
| Commands.QuitCommandMatchesQuit | src/rawIDE.py:318-322 | the `q` decision refuses exactly when `quit(force)` would |
| Commands.WriteQuitCommand | src/rawIDE.py:440-445 | `wq` saves and ends on a named buffer, and only asks for a name otherwise |
| Commands.QuitCommand | src/rawIDE.py:446-453 | `q` ends the session exactly when nothing is unsaved, and otherwise warns |
| Commands.ForcedQuitCommand | src/rawIDE.py:446-449 | `q !` ends the session whatever is unsaved |
| Commands.WriteAsCommand | src/rawIDE.py:431-433 | `w name` saves under that name and keeps the session going |
| Commands.WriteCommand | src/rawIDE.py:431-439 | `w` saves under the buffer's name, and only asks for a name when there is none |
| Commands.RunCommand | src/rawIDE.py:454-456 | `r` compiles and runs and keeps the session going |
| Commands.OpenFileCommand | src/rawIDE.py:457-462 | `open name` asks for that file to be loaded |
| Commands.QuitBangIsUnknown | src/rawIDE.py:422-509 | `q!` written without a space is reported as an unknown command and does not end the session |
| Commands.Extension | src/rawIDE.py:329 | the extension is a suffix of the name that is empty or a dot followed by neither dots nor slashes; a non-empty extension has a character other than a dot before it in the last path component, so leading dots never start one |
| Commands.PlanRun | src/rawIDE.py:324-336 | an unnamed buffer is refused before anything else; a named one whose save fails is refused with the save error; otherwise it runs, with the pipeline its name selects |
| Commands.Invocations | src/rawIDE.py:338-383 | an unsupported extension starts no process; Python runs the file; a compiler builds an executable, which runs only when the compiler exits with 0; after a failed compile exactly the compile was started |
| Commands.ExtensionOfSuffixedName | src/rawIDE.py:329 | `stem.suffix` has extension `.suffix` when the suffix has no dot or slash and the stem does not end in one |
| Commands.PipelineFor | src/rawIDE.py:329-383 | the lower-cased extension selects the interpreter exactly for `.py`, gcc exactly for `.c`, g++ exactly for `.cpp`, `.cc` and `.cxx`, rustc exactly for `.rs`; the pipeline is unsupported if and only if the extension is none of those six, and then reports it |
| Commands.CompiledBySuffix | src/rawIDE.py:329-383 | a name `stem.suffix` is compiled by gcc, g++ or rustc exactly when its suffix, in any letter case, is `c`; `cpp`, `cc` or `cxx`; or `rs`; it is unsupported exactly when the suffix is none of the six |
| Commands.InterpretedExactlyForPy | src/rawIDE.py:329-341 | such a name runs through the interpreter if and only if its suffix is `py` in any letter case |
| Commands.HiddenFileHasNoExtension | src/rawIDE.py:329 | a last path component made of a dot and a dot-free name (`.bashrc`, `.py`) has no extension |
| Commands.HiddenFileUnsupported | src/rawIDE.py:329-383 | such a hidden file selects no pipeline and reports an empty extension |
| Commands.NoExtensionUnsupported | src/rawIDE.py:329-383 | a name without a dot selects no pipeline |
| Modes.Move | src/rawIDE.py:617-624 | each arrow is the buffer's move in that direction, and only the cursor changes |
| Modes.NavigationKey | src/rawIDE.py:615-640 | in Navigation an arrow moves the cursor and every other key leaves the buffer alone; `i` and only `i` enters Insertion; `:` and only `:` opens the prompt |
| Modes.InsertionKey | src/rawIDE.py:641-664 | in Insertion the mode stays and no prompt opens; an arrow moves, Enter splits the line, Erase backspaces, Tab inserts four spaces, a character is inserted, and any other key leaves the buffer alone |
| Modes.Step | src/rawIDE.py:591-664 | Esc always returns to Navigation untouched; the undo and redo keys report success if and only if their stack is non-empty; the prompt opens exactly on `:` in Navigation; the mode changes exactly on Esc in Insertion and on `i` in Navigation; the two chords perform undo and redo and report `Undone`/`Redone` or `NothingToUndo`/`NothingToRedo` by the state of their stack; every other key goes to the current mode's table and reports nothing |
| Modes.NavigationNeverEdits | src/rawIDE.py:615-640 | apart from the undo and redo keys, no key in Navigation changes text, dirty flag or history |
| Modes.ColonIsTextInInsertion | src/rawIDE.py:641-664 | `:` in Insertion is inserted as text and opens no prompt |
| Modes.TabUndoneInOneStep | src/rawIDE.py:655-664 | Tab inserts four spaces as one edit that a single undo removes |
| Modes.TypingNeedsInsertion | src/rawIDE.py:615-664 | a character that decodes to no other key is ignored in Navigation and lands at the cursor in Insertion |
| Editor.Perform | src/rawIDE.py:304-336 | `open` hands the file-system answer to load; every other action keeps text and stacks; each save (`w name`, `w`, `wq`, and the one before `r` on a named buffer) leaves the buffer clean exactly when its write succeeds or it was already clean; only a successful `w name` renames it; actions that neither save nor open leave the buffer alone |
| Editor.Tick | src/rawIDE.py:591-639 | a turn keeps the buffer valid, moves the view exactly as `ensure_cursor_visible` does for the cursor the frame is drawn with, before the key, and ends the session exactly when a `:` command in Navigation decides to stop, which needs first word `q` or `wq`; otherwise it is the key's step |
| Editor.TickAtPrompt | src/rawIDE.py:628-639 | at the prompt the turn is the command's decision, carried out, back in Navigation |
| Editor.WriteQuitEndsEvenIfWriteFails | src/rawIDE.py:440-445 | `wq` on a named buffer ends the session even when the write fails, so the unsaved changes are lost |
| Editor.WriteQuitNeedsName | src/rawIDE.py:440-443 | `wq` on an unnamed buffer keeps the session going with the buffer untouched |
| Editor.QuitRefusedWhenChanged | src/rawIDE.py:446-453 | `q` with unsaved changes keeps the session going with the buffer untouched |
| Editor.ForcedQuitEnds | src/rawIDE.py:446-449 | `q !` ends the session |
| Editor.WriteAsSavesAndNames | src/rawIDE.py:431-433 | a written `w name` keeps the text, clears the dirty flag and takes the name, and the session goes on |
| Editor.WriteAsFailureKeepsBuffer | src/rawIDE.py:311-316 | a `w name` whose write fails leaves the buffer exactly as it was |
| Editor.RunSavesFirst | src/rawIDE.py:324-336 | `r` on a named buffer saves first, so a successful write leaves it clean with its text unchanged; the session goes on |
| Editor.OpenCommand | src/rawIDE.py:457-462 | `open name` loads the file through the buffer and stays in Navigation |
| Editor.OpenUnreadableFile | src/rawIDE.py:200-206 | opening an unreadable file keeps text, cursor and dirty flag, but has recorded the state and emptied redo |
| Editor.OpenReadableFile | src/rawIDE.py:200-213 | opening a readable file shows its reloaded lines from (0, 0), clean, under the new name |

## Where the code and the documentation differ

The model follows the code in each case:

- The unsaved-changes message advises `:q!`. The code, however, splits
  the line on whitespace, so `q!` is one unknown word. Only `:q !`, with a
  space, forces a quit (`Commands.QuitBangIsUnknown`).
- `:wq` ends the session even when the save fails. The save error is
  caught, and only a missing file name keeps the session going
  (`Editor.WriteQuitEndsEvenIfWriteFails`).
- `:open` of an unreadable file still records a snapshot and empties the
  redo stack, because that happens before the read
  (`Editor.OpenUnreadableFile`).
- `:r` also dispatches `.rs` files, to `rustc`.
- `:r` saves before it looks at the extension, so an unsupported file is
  still written (`Commands.PlanRun`).

## Left out

- Rendering (`draw`, `popup_text`, `show_output`), terminal set-up and
  status-message expiry: screen output only; the decision they display is
  modelled.
- Key decoding (`DumbTerminal.get_key`, curses key codes): keys arrive
  already decoded as `Modes.Key`. `Char` is meant to carry only
  characters that decode to no other key (`Modes.Plain`); the lemmas
  about typing require that.
- What the curses loop cannot see: it only turns codes 0–255 into
  characters to insert, and it reads at most 200 characters of command
  line.
- Process execution (`run_command_and_capture`, time-outs, temporary
  executables): `Commands.Invocations` lists the processes and takes the
  compiler's status as a parameter.
- `:cd`, `:mkdir`, `:ls` and `:help`: their decisions are modelled
  (`Chdir`, `Mkdir`, `ShowListing`, `ShowHelp`). Their file-system effects
  and output are not, and `Editor.Perform` leaves the buffer alone for
  them, as the source does.
- `main`, argument handling and the choice between curses and the
  fallback terminal: start-up only.
- Universal-newline translation on reading: it does not change what
  `splitlines` returns.
- Encoding errors on reading: they arrive as an unreadable file
  (`Io.read == None`).
- TextBuffer.New: the undo limit is a natural number. A negative
  `undo_limit` in the source empties the stack after every push, exactly
  like 0.
- Commands.Extension: models POSIX `os.path.splitext` only; the Windows
  variant also splits at `\` and `:`.
- Commands.Lower: lowers only the ASCII letters. For the six extensions
  that select a pipeline the result is the same, because no non-ASCII
  character lowers to one of their letters.
- Editor.Tick: takes the terminal size as a parameter of each turn and
  does not say where it comes from. In the curses loop,
  `ensure_cursor_visible` uses the size that the previous frame's `draw`
  stored (src/rawIDE.py:515-517). The fallback loop copies the size of a
  terminal object created once (src/rawIDE.py:675, 681-682).

=== FILE: buffer.dfy ===
/** The editor's document (class Buffer in src/rawIDE.py): a list of lines,
    a cursor (cx column, cy line), a dirty flag, an optional file name and
    two stacks of snapshots for linear undo/redo. Every operation is a pure
    function from the old buffer to the new one. */
module TextBuffer {
  import LineFormat

  datatype Option<T> = None | Some(value: T)

  /** What a history entry captures: the lines and the cursor. */
  datatype Snapshot = Snapshot(lines: seq<string>, cx: nat, cy: nat)

  /** The stacks keep their oldest entry first; the top is the last element. */
  datatype Buffer = Buffer(
    lines: seq<string>,
    filename: Option<string>,
    cx: nat,
    cy: nat,
    changed: bool,
    undo: seq<Snapshot>,
    redo: seq<Snapshot>,
    limit: nat)

  /** The default depth of the undo stack. */
  const DefaultUndoLimit: nat := 200

  /** The document is never empty and the cursor addresses a line of it,
      possibly just after its last character. */
  predicate InRange(lines: seq<string>, cx: nat, cy: nat) {
    |lines| >= 1 && cy < |lines| && cx <= |lines[cy]|
  }

  predicate SnapshotOk(s: Snapshot) {
    InRange(s.lines, s.cx, s.cy)
  }

  /** Every stored snapshot can be restored, and the two stacks together
      never hold more than the limit, which also bounds the undo stack after
      a redo (redo pushes onto it without evicting). */
  predicate HistoryOk(undo: seq<Snapshot>, redo: seq<Snapshot>, limit: nat) {
    && (forall i :: 0 <= i < |undo| ==> SnapshotOk(undo[i]))
    && (forall i :: 0 <= i < |redo| ==> SnapshotOk(redo[i]))
    && |undo| + |redo| <= limit
  }

  predicate Valid(b: Buffer) {
    InRange(b.lines, b.cx, b.cy) && HistoryOk(b.undo, b.redo, b.limit)
  }

  function Snap(b: Buffer): Snapshot {
    Snapshot(b.lines, b.cx, b.cy)
  }

  /** Same lines and the same cursor. */
  predicate SameText(a: Buffer, b: Buffer) {
    a.lines == b.lines && a.cx == b.cx && a.cy == b.cy
  }

  /** Nothing but the cursor may differ: what navigation promises. */
  predicate OnlyCursorMoved(b: Buffer, r: Buffer) {
    && r.lines == b.lines && r.filename == b.filename && r.changed == b.changed
    && r.undo == b.undo && r.redo == b.redo && r.limit == b.limit
  }

  /** Buffer(lines, filename, undo_limit): an absent or empty list of lines
      becomes one empty line; the cursor starts at the document start and
      the history is empty. */
  function New(lines: seq<string>, filename: Option<string>, limit: nat): (b: Buffer)
    ensures Valid(b)
    ensures b.cx == 0 && b.cy == 0 && !b.changed && b.filename == filename
    ensures b.undo == [] && b.redo == [] && b.limit == limit
    ensures |lines| > 0 ==> b.lines == lines
    ensures |lines| == 0 ==> b.lines == [""]
  {
    Buffer(if |lines| == 0 then [""] else lines, filename, 0, 0, false, [], [], limit)
  }

  // ---- History ----

  /** _push_undo on the stack alone: append, then evict the oldest entry
      when the stack is over the limit. */
  function Push(undo: seq<Snapshot>, s: Snapshot, limit: nat): (r: seq<Snapshot>)
    ensures |undo| < limit ==> r == undo + [s]
    ensures 0 < limit == |undo| ==> r == undo[1..] + [s]
    ensures limit == 0 == |undo| ==> r == []
    ensures |undo| <= limit ==> |r| <= limit
    ensures forall i :: 0 <= i < |r| ==> r[i] == s || r[i] in undo
  {
    var u := undo + [s];
    if |u| > limit then u[1..] else u
  }

  /** The history effect every edit has: the pre-edit state is pushed and
      the redo stack is emptied. */
  predicate Recorded(b: Buffer, r: Buffer) {
    r.undo == Push(b.undo, Snap(b), b.limit) && r.redo == [] && r.limit == b.limit
  }

  /** _push_undo followed by _clear_redo. */
  function BeginEdit(b: Buffer): (r: Buffer)
    requires Valid(b)
    ensures Recorded(b, r) && HistoryOk(r.undo, r.redo, r.limit)
    ensures SameText(r, b) && r.filename == b.filename && r.changed == b.changed
  {
    b.(undo := Push(b.undo, Snap(b), b.limit), redo := [])
  }

  /** Make a snapshot current again; a restored state counts as changed. */
  function Restore(b: Buffer, s: Snapshot): (r: Buffer)
    ensures Snap(r) == s && r.changed
    ensures r.(lines := b.lines, cx := b.cx, cy := b.cy, changed := b.changed) == b
    ensures SnapshotOk(s) && HistoryOk(b.undo, b.redo, b.limit) ==> Valid(r)
  {
    b.(lines := s.lines, cx := s.cx, cy := s.cy, changed := true)
  }

  /** undo(): false and no change on an empty undo stack; otherwise the
      current state moves to the redo stack and the newest undo entry
      becomes current. */
  function Undo(b: Buffer): (r: (bool, Buffer))
    requires Valid(b)
    ensures Valid(r.1)
    ensures r.0 <==> |b.undo| > 0
    ensures !r.0 ==> r.1 == b
    ensures r.0 ==> Snap(r.1) == b.undo[|b.undo| - 1] && r.1.changed
    ensures r.0 ==> r.1.undo == b.undo[..|b.undo| - 1] && r.1.redo == b.redo + [Snap(b)]
    ensures r.1.filename == b.filename && r.1.limit == b.limit
  {
    if |b.undo| == 0 then (false, b)
    else
      var top := b.undo[|b.undo| - 1];
      (true, Restore(b, top).(undo := b.undo[..|b.undo| - 1], redo := b.redo + [Snap(b)]))
  }

  /** redo(): the mirror image of undo, moving the newest redo entry back. */
  function Redo(b: Buffer): (r: (bool, Buffer))
    requires Valid(b)
    ensures Valid(r.1)
    ensures r.0 <==> |b.redo| > 0
    ensures !r.0 ==> r.1 == b
    ensures r.0 ==> Snap(r.1) == b.redo[|b.redo| - 1] && r.1.changed
    ensures r.0 ==> r.1.redo == b.redo[..|b.redo| - 1] && r.1.undo == b.undo + [Snap(b)]
    ensures r.1.filename == b.filename && r.1.limit == b.limit
  {
    if |b.redo| == 0 then (false, b)
    else
      var top := b.redo[|b.redo| - 1];
      (true, Restore(b, top).(redo := b.redo[..|b.redo| - 1], undo := b.undo + [Snap(b)]))
  }

  // ---- Editing primitives ----

  /** insert_char(ch): ch goes in at the cursor and the cursor moves past it;
      no other line and not the cursor line index change. */
  function InsertChar(b: Buffer, ch: string): (r: Buffer)
    requires Valid(b)
    ensures Valid(r)
    ensures Recorded(b, r) && r.changed && r.filename == b.filename
    ensures |r.lines| == |b.lines| && r.cy == b.cy && r.cx == b.cx + |ch|
    ensures r.lines[b.cy][..b.cx] == b.lines[b.cy][..b.cx]
    ensures r.lines[b.cy][b.cx..r.cx] == ch
    ensures r.lines[b.cy][r.cx..] == b.lines[b.cy][b.cx..]
    ensures forall i :: 0 <= i < |b.lines| && i != b.cy ==> r.lines[i] == b.lines[i]
  {
    var e := BeginEdit(b);
    var line := b.lines[b.cy];
    var line' := line[..b.cx] + ch + line[b.cx..];
    assert line'[..b.cx] == line[..b.cx];
    assert line'[b.cx..b.cx + |ch|] == ch;
    assert line'[b.cx + |ch|..] == line[b.cx..];
    e.(lines := b.lines[b.cy := line'], cx := b.cx + |ch|, changed := true)
  }

  /** backspace(): at the document start nothing at all happens; inside a
      line the character before the cursor goes; at a line start the line
      is appended to the previous one and the cursor lands on the seam. */
  function Backspace(b: Buffer): (r: Buffer)
    requires Valid(b)
    ensures Valid(r)
    ensures b.cx == 0 && b.cy == 0 ==> r == b
    ensures !(b.cx == 0 && b.cy == 0) ==> Recorded(b, r) && r.changed && r.filename == b.filename
    ensures b.cx > 0 ==>
      && |r.lines| == |b.lines| && r.cy == b.cy && r.cx == b.cx - 1
      && r.lines[b.cy][..r.cx] == b.lines[b.cy][..b.cx - 1]
      && r.lines[b.cy][r.cx..] == b.lines[b.cy][b.cx..]
      && (forall i :: 0 <= i < |b.lines| && i != b.cy ==> r.lines[i] == b.lines[i])
    ensures b.cx == 0 && b.cy > 0 ==>
      && |r.lines| == |b.lines| - 1 && r.cy == b.cy - 1 && r.cx == |b.lines[b.cy - 1]|
      && r.lines[r.cy] == b.lines[b.cy - 1] + b.lines[b.cy]
      && r.lines[..r.cy] == b.lines[..r.cy]
      && r.lines[b.cy..] == b.lines[b.cy + 1..]
  {
    if b.cx == 0 && b.cy == 0 then b
    else
      var e := BeginEdit(b);
      if b.cx > 0 then
        var line := b.lines[b.cy];
        var line' := line[..b.cx - 1] + line[b.cx..];
        assert line'[..b.cx - 1] == line[..b.cx - 1];
        assert line'[b.cx - 1..] == line[b.cx..];
        e.(lines := b.lines[b.cy := line'], cx := b.cx - 1, changed := true)
      else
        var prev := b.lines[b.cy - 1];
        var lines' := b.lines[..b.cy - 1] + [prev + b.lines[b.cy]] + b.lines[b.cy + 1..];
        assert lines'[..b.cy - 1] == b.lines[..b.cy - 1];
        assert lines'[b.cy..] == b.lines[b.cy + 1..];
        e.(lines := lines', cy := b.cy - 1, cx := |prev|, changed := true)
  }

  /** newline(): the cursor line is cut at the cursor into two consecutive
      lines and the cursor goes to the start of the second. */
  function Newline(b: Buffer): (r: Buffer)
    requires Valid(b)
    ensures Valid(r)
    ensures Recorded(b, r) && r.changed && r.filename == b.filename
    ensures |r.lines| == |b.lines| + 1 && r.cy == b.cy + 1 && r.cx == 0
    ensures |r.lines[b.cy]| == b.cx
    ensures r.lines[b.cy] + r.lines[b.cy + 1] == b.lines[b.cy]
    ensures r.lines[..b.cy] == b.lines[..b.cy]
    ensures r.lines[b.cy + 2..] == b.lines[b.cy + 1..]
  {
    var e := BeginEdit(b);
    var line := b.lines[b.cy];
    var lines' := b.lines[..b.cy] + [line[..b.cx], line[b.cx..]] + b.lines[b.cy + 1..];
    assert lines'[..b.cy] == b.lines[..b.cy];
    assert lines'[b.cy + 2..] == b.lines[b.cy + 1..];
    assert line[..b.cx] + line[b.cx..] == line;
    e.(lines := lines', cy := b.cy + 1, cx := 0, changed := true)
  }

  // ---- Navigation ----

  /** move_left(): one column back, or to the end of the previous line. */
  function MoveLeft(b: Buffer): (r: Buffer)
    requires Valid(b)
    ensures Valid(r) && OnlyCursorMoved(b, r)
    ensures b.cx > 0 ==> r.cy == b.cy && r.cx == b.cx - 1
    ensures b.cx == 0 && b.cy > 0 ==> r.cy == b.cy - 1 && r.cx == |b.lines[b.cy - 1]|
    ensures b.cx == 0 && b.cy == 0 ==> r == b
  {
    if b.cx > 0 then b.(cx := b.cx - 1)
    else if b.cy > 0 then b.(cy := b.cy - 1, cx := |b.lines[b.cy - 1]|)
    else b
  }

  /** move_right(): one column on, or to the start of the next line. */
  function MoveRight(b: Buffer): (r: Buffer)
    requires Valid(b)
    ensures Valid(r) && OnlyCursorMoved(b, r)
    ensures b.cx < |b.lines[b.cy]| ==> r.cy == b.cy && r.cx == b.cx + 1
    ensures b.cx == |b.lines[b.cy]| && b.cy + 1 < |b.lines| ==> r.cy == b.cy + 1 && r.cx == 0
    ensures b.cx == |b.lines[b.cy]| && b.cy + 1 == |b.lines| ==> r == b
  {
    if b.cx < |b.lines[b.cy]| then b.(cx := b.cx + 1)
    else if b.cy < |b.lines| - 1 then b.(cy := b.cy + 1, cx := 0)
    else b
  }

  function Min(a: nat, b: nat): nat {
    if a <= b then a else b
  }

  /** move_up(): the previous line, column clamped to its length. */
  function MoveUp(b: Buffer): (r: Buffer)
    requires Valid(b)
    ensures Valid(r) && OnlyCursorMoved(b, r)
    ensures b.cy > 0 ==> r.cy == b.cy - 1
    ensures b.cy > 0 ==> r.cx <= b.cx && (r.cx == b.cx || r.cx == |b.lines[r.cy]|)
    ensures b.cy == 0 ==> r == b
  {
    if b.cy > 0 then b.(cy := b.cy - 1, cx := Min(b.cx, |b.lines[b.cy - 1]|))
    else b
  }

  /** move_down(): the next line, column clamped to its length. */
  function MoveDown(b: Buffer): (r: Buffer)
    requires Valid(b)
    ensures Valid(r) && OnlyCursorMoved(b, r)
    ensures b.cy + 1 < |b.lines| ==> r.cy == b.cy + 1
    ensures b.cy + 1 < |b.lines| ==> r.cx <= b.cx && (r.cx == b.cx || r.cx == |b.lines[r.cy]|)
    ensures b.cy + 1 == |b.lines| ==> r == b
  {
    if b.cy < |b.lines| - 1 then b.(cy := b.cy + 1, cx := Min(b.cx, |b.lines[b.cy + 1]|))
    else b
  }

  // ---- Load and save ----

  /** load_from_file(name): the pre-load state is pushed and redo cleared
      BEFORE the file is read, so a failed read (read == None) leaves the
      text, flag and name alone but still changes the history. A successful
      read replaces the lines, names the buffer and clears the flag. */
  function Open(b: Buffer, read: Option<string>, name: string): (r: Buffer)
    requires Valid(b)
    ensures Valid(r) && Recorded(b, r)
    ensures read.None? ==> SameText(r, b) && r.changed == b.changed && r.filename == b.filename
    ensures read.Some? ==>
      && r.lines == LineFormat.Reload(read.value)
      && r.cx == 0 && r.cy == 0 && !r.changed && r.filename == Some(name)
  {
    var e := BeginEdit(b);
    match read
    case None => e
    case Some(text) =>
      e.(lines := LineFormat.Reload(text), filename := Some(name), cx := 0, cy := 0, changed := false)
  }

  datatype SaveOutcome = Saved(buf: Buffer, text: string) | NoFilename | WriteFailed

  /** save(filename): the explicit name wins over the buffer's; with neither
      the save is refused. The write itself is the parameter writeOk. On
      success the buffer takes the name and is clean; lines, cursor and
      both history stacks are untouched. */
  function Save(b: Buffer, arg: Option<string>, writeOk: bool): (r: SaveOutcome)
    ensures r.NoFilename? <==> arg.None? && b.filename.None?
    ensures r.Saved? <==> (arg.Some? || b.filename.Some?) && writeOk
    ensures r.Saved? ==>
      && SameText(r.buf, b) && r.buf.undo == b.undo && r.buf.redo == b.redo && r.buf.limit == b.limit
      && !r.buf.changed
      && r.buf.filename == (if arg.Some? then arg else b.filename)
      && r.text == LineFormat.Join(b.lines)
  {
    var target := if arg.Some? then arg else b.filename;
    if target.None? then NoFilename
    else if !writeOk then WriteFailed
    else Saved(b.(filename := target, changed := false), LineFormat.Join(b.lines))
  }
}

=== FILE: commands.dfy ===
/** The ':' command line (RawIDE.handle_command, and RawIDE.quit, whose
    test the "q" branch repeats inline) and the choice of build pipeline in RawIDE.compile_and_run, as pure decisions.
    What a command does to the file system or to a process is left to the
    caller; the decision names it with an Action. */
module Commands {
  import opened TextBuffer

  // ---- Tokenising: str.strip() and str.split() ----

  /** Python's str.isspace for one character. */
  predicate IsSpace(c: char) {
    var n := c as int;
    || 0x09 <= n <= 0x0D || 0x1C <= n <= 0x20
    || n == 0x85 || n == 0xA0 || n == 0x1680
    || 0x2000 <= n <= 0x200A
    || n == 0x2028 || n == 0x2029 || n == 0x202F || n == 0x205F || n == 0x3000
  }

  predicate AllSpace(s: string) {
    forall i :: 0 <= i < |s| ==> IsSpace(s[i])
  }

  predicate SpaceFree(s: string) {
    forall i :: 0 <= i < |s| ==> !IsSpace(s[i])
  }

  predicate IsWord(w: string) {
    |w| > 0 && SpaceFree(w)
  }

  /** Length of the whitespace prefix. */
  function SpaceRun(s: string): (k: nat)
    ensures k <= |s| && AllSpace(s[..k])
    ensures k < |s| ==> !IsSpace(s[k])
  {
    if |s| == 0 || !IsSpace(s[0]) then 0
    else
      var k := 1 + SpaceRun(s[1..]);
      assert s[..k] == [s[0]] + s[1..][..k - 1];
      k
  }

  /** Length of the non-whitespace prefix. */
  function WordRun(s: string): (k: nat)
    ensures k <= |s| && SpaceFree(s[..k])
    ensures k < |s| ==> IsSpace(s[k])
  {
    if |s| == 0 || IsSpace(s[0]) then 0
    else
      var k := 1 + WordRun(s[1..]);
      assert s[..k] == [s[0]] + s[1..][..k - 1];
      k
  }

  /** str.split(): the maximal runs of non-whitespace characters. */
  function Tokens(s: string): (ts: seq<string>)
    ensures forall i :: 0 <= i < |ts| ==> IsWord(ts[i])
    ensures |ts| == 0 <==> AllSpace(s)
    decreases |s|
  {
    var a := SpaceRun(s);
    if a == |s| then
      assert s[..a] == s;
      []
    else
      var t := s[a..];
      var w := WordRun(t);
      [t[..w]] + Tokens(t[w..])
  }

  /** The input without its whitespace. */
  function Squeeze(s: string): string
  {
    if |s| == 0 then "" else (if IsSpace(s[0]) then "" else [s[0]]) + Squeeze(s[1..])
  }

  function Concat(ts: seq<string>): string
  {
    if |ts| == 0 then "" else ts[0] + Concat(ts[1..])
  }

  /** The words separated by single spaces, as a user would type them. */
  function Unwords(ts: seq<string>): string
  {
    if |ts| == 0 then "" else if |ts| == 1 then ts[0] else ts[0] + " " + Unwords(ts[1..])
  }

  lemma {:induction false} SqueezeAppend(x: string, y: string)
    ensures Squeeze(x + y) == Squeeze(x) + Squeeze(y)
    decreases |x|
  {
    if |x| == 0 {
      assert x + y == y;
    } else {
      assert (x + y)[1..] == x[1..] + y;
      SqueezeAppend(x[1..], y);
    }
  }

  lemma {:induction false} SqueezeAllSpace(s: string)
    requires AllSpace(s)
    ensures Squeeze(s) == ""
    decreases |s|
  {
    if |s| > 0 {
      SqueezeAllSpace(s[1..]);
    }
  }

  lemma {:induction false} SqueezeSpaceFree(s: string)
    requires SpaceFree(s)
    ensures Squeeze(s) == s
    decreases |s|
  {
    if |s| > 0 {
      SqueezeSpaceFree(s[1..]);
      assert s == [s[0]] + s[1..];
    }
  }

  lemma SqueezeDropSpace(s: string, a: nat)
    requires a <= |s| && AllSpace(s[..a])
    ensures Squeeze(s) == Squeeze(s[a..])
  {
    assert s == s[..a] + s[a..];
    SqueezeAppend(s[..a], s[a..]);
    SqueezeAllSpace(s[..a]);
  }

  lemma SqueezeKeepWord(t: string, w: nat)
    requires w <= |t| && SpaceFree(t[..w])
    ensures Squeeze(t) == t[..w] + Squeeze(t[w..])
  {
    assert t == t[..w] + t[w..];
    SqueezeAppend(t[..w], t[w..]);
    SqueezeSpaceFree(t[..w]);
  }

  lemma ConcatCons(x: string, xs: seq<string>)
    ensures Concat([x] + xs) == x + Concat(xs)
  {
    assert ([x] + xs)[1..] == xs;
  }

  /** Tokenising loses only whitespace: the words, concatenated, are the
      input with its whitespace removed. */
  lemma {:induction false} TokensKeepAllButSpace(s: string)
    ensures Concat(Tokens(s)) == Squeeze(s)
    decreases |s|
  {
    var a := SpaceRun(s);
    SqueezeDropSpace(s, a);
    if a == |s| {
      assert s[a..] == "";
    } else {
      var t := s[a..];
      var w := WordRun(t);
      assert Tokens(s) == [t[..w]] + Tokens(t[w..]);
      SqueezeKeepWord(t, w);
      TokensKeepAllButSpace(t[w..]);
      ConcatCons(t[..w], Tokens(t[w..]));
    }
  }

  lemma {:induction false} WordRunAfterWord(w: string, rest: string)
    requires SpaceFree(w) && (|rest| == 0 || IsSpace(rest[0]))
    ensures WordRun(w + rest) == |w|
    decreases |w|
  {
    if |w| == 0 {
      assert w + rest == rest;
    } else {
      assert (w + rest)[1..] == w[1..] + rest;
      WordRunAfterWord(w[1..], rest);
    }
  }

  /** A word followed by whitespace (or nothing) is the first token. */
  lemma TokensOfWordThen(w: string, rest: string)
    requires IsWord(w) && (|rest| == 0 || IsSpace(rest[0]))
    ensures Tokens(w + rest) == [w] + Tokens(rest)
  {
    var s := w + rest;
    WordRunAfterWord(w, rest);
    assert SpaceRun(s) == 0;
    assert s[0..] == s;
    assert s[..|w|] == w && s[|w|..] == rest;
  }

  /** One leading whitespace character of any kind does not change the
      tokens; with TokensOfWordThen this fixes the tokens of every line. */
  lemma TokensAfterBlank(c: char, u: string)
    requires IsSpace(c)
    ensures Tokens([c] + u) == Tokens(u)
  {
    var v := [c] + u;
    assert v[1..] == u;
    var a := SpaceRun(v);
    assert a == 1 + SpaceRun(u);
    if a == |v| {
      assert AllSpace(u) by {
        assert u == v[1..a];
      }
    } else {
      assert v[a..] == u[SpaceRun(u)..];
    }
  }

  lemma AllWordsTail(ts: seq<string>)
    requires |ts| > 0 && forall i :: 0 <= i < |ts| ==> IsWord(ts[i])
    ensures IsWord(ts[0]) && forall i :: 0 <= i < |ts[1..]| ==> IsWord(ts[1..][i])
  {
  }

  lemma UnwordsCons(ts: seq<string>)
    requires |ts| > 1
    ensures Unwords(ts) == ts[0] + (" " + Unwords(ts[1..]))
  {
  }

  /** Words typed with single spaces between them tokenise back to
      themselves. */
  lemma {:induction false} TokensOfUnwords(ts: seq<string>)
    requires forall i :: 0 <= i < |ts| ==> IsWord(ts[i])
    ensures Tokens(Unwords(ts)) == ts
    decreases |ts|
  {
    if |ts| == 1 {
      TokensOfWordThen(ts[0], "");
      assert ts[0] + "" == ts[0];
    } else if |ts| > 1 {
      var w, rest := ts[0], ts[1..];
      assert ts == [w] + rest;
      AllWordsTail(ts);
      UnwordsCons(ts);
      var u := Unwords(rest);
      TokensOfUnwords(rest);
      TokensOfWordThen(w, " " + u);
      assert " " + u == [' '] + u;
      TokensAfterBlank(' ', u);
    }
  }

  // ---- Commands ----

  /** A parsed command line: the first word selects the command, the
      second (when present) is its argument; further words are ignored. */
  datatype Command =
    | Blank
    | Write(name: Option<string>)
    | WriteQuit
    | Quit(force: bool)
    | Run
    | OpenFile(name: Option<string>)
    | ChangeDir(dir: Option<string>)
    | MakeDir(dir: Option<string>)
    | ListDir(target: string)
    | Help
    | Unknown(word: string)

  function ParseWords(ts: seq<string>): (c: Command)
    ensures c.Blank? <==> |ts| == 0
    ensures c.Quit? <==> |ts| > 0 && ts[0] == "q"
    ensures c.WriteQuit? <==> |ts| > 0 && ts[0] == "wq"
    ensures c.Quit? ==> (c.force <==> |ts| > 1 && ts[1] == "!")
    ensures c.Write? <==> |ts| > 0 && ts[0] == "w"
    ensures c.Write? ==> c.name == if |ts| > 1 then Some(ts[1]) else None
    ensures c.OpenFile? <==> |ts| > 0 && ts[0] == "open"
    ensures c.OpenFile? ==> c.name == if |ts| > 1 then Some(ts[1]) else None
    ensures c.Run? <==> |ts| > 0 && ts[0] == "r"
    ensures c.ChangeDir? <==> |ts| > 0 && ts[0] == "cd"
    ensures c.ChangeDir? ==> c.dir == if |ts| > 1 then Some(ts[1]) else None
    ensures c.MakeDir? <==> |ts| > 0 && ts[0] == "mkdir"
    ensures c.MakeDir? ==> c.dir == if |ts| > 1 then Some(ts[1]) else None
    ensures c.ListDir? <==> |ts| > 0 && ts[0] == "ls"
    ensures c.ListDir? ==> c.target == if |ts| > 1 then ts[1] else "."
    ensures c.Help? <==> |ts| > 0 && ts[0] == "help"
    ensures c.Unknown? ==> c.word == ts[0]
  {
    if |ts| == 0 then Blank
    else
      var arg := if |ts| > 1 then Some(ts[1]) else None;
      match ts[0]
      case "w" => Write(arg)
      case "wq" => WriteQuit
      case "q" => Quit(arg == Some("!"))
      case "r" => Run
      case "open" => OpenFile(arg)
      case "cd" => ChangeDir(arg)
      case "mkdir" => MakeDir(arg)
      case "ls" => ListDir(if arg.Some? then arg.value else ".")
      case "help" => Help
      case _ => Unknown(ts[0])
  }

  function Parse(line: string): Command {
    ParseWords(Tokens(line))
  }

  /** The status texts handle_command can set itself. */
  datatype Message =
    | NeedFilename         // ":w" on an unnamed buffer
    | NeedFilenameToQuit   // ":wq" on an unnamed buffer
    | UnsavedChanges
    | OpenUsage
    | CdUsage
    | MkdirUsage
    | UnknownCommand(word: string)

  /** What the command asks the editor to do. */
  datatype Action =
    | NoAction
    | SaveAs(name: string)
    | SaveCurrent
    | Notify(msg: Message)
    | CompileAndRun
    | Load(name: string)
    | Chdir(dir: string)
    | Mkdir(dir: string)
    | ShowListing(dir: string)
    | ShowHelp

  /** proceed == false ends the editor session. */
  datatype Decision = Decision(proceed: bool, action: Action)

  /** A buffer file name counts only when present and non-empty (the
      source tests it for truthiness). */
  predicate Named(filename: Option<string>) {
    filename.Some? && filename.value != ""
  }

  /** RawIDE.quit(force): quitting is refused while there are unsaved
      changes, unless forced. Nothing in the program calls quit(); the "q"
      branch of handle_command repeats the test inline, with a different
      message. */
  function QuitAllowed(changed: bool, force: bool): (ok: bool)
    ensures !ok <==> changed && !force
  {
    force || !changed
  }

  function Decide(c: Command, changed: bool, named: bool): (d: Decision)
    ensures !d.proceed <==>
      (c.WriteQuit? && named) || (c.Quit? && QuitAllowed(changed, c.force))
    ensures c.Blank? ==> d == Decision(true, NoAction)
    ensures c.Write? ==> d.proceed
    ensures c.Write? && c.name.Some? ==> d.action == SaveAs(c.name.value)
    ensures c.Write? && c.name.None? ==> d.action == if named then SaveCurrent else Notify(NeedFilename)
    ensures c.WriteQuit? ==> d.action == if named then SaveCurrent else Notify(NeedFilenameToQuit)
    ensures c.Quit? ==> d.action == if QuitAllowed(changed, c.force) then NoAction else Notify(UnsavedChanges)
    ensures c.Run? ==> d == Decision(true, CompileAndRun)
    ensures c.OpenFile? ==> d == Decision(true, if c.name.Some? then Load(c.name.value) else Notify(OpenUsage))
    ensures c.ChangeDir? ==> d == Decision(true, if c.dir.Some? then Chdir(c.dir.value) else Notify(CdUsage))
    ensures c.MakeDir? ==> d == Decision(true, if c.dir.Some? then Mkdir(c.dir.value) else Notify(MkdirUsage))
    ensures c.ListDir? ==> d == Decision(true, ShowListing(c.target))
    ensures c.Help? ==> d == Decision(true, ShowHelp)
    ensures c.Unknown? ==> d == Decision(true, Notify(UnknownCommand(c.word)))
  {
    match c
    case Blank => Decision(true, NoAction)
    case Write(name) =>
      if name.Some? then Decision(true, SaveAs(name.value))
      else if !named then Decision(true, Notify(NeedFilename))
      else Decision(true, SaveCurrent)
    case WriteQuit =>
      if !named then Decision(true, Notify(NeedFilenameToQuit))
      else Decision(false, SaveCurrent)
    case Quit(force) =>
      if force then Decision(false, NoAction)
      else if changed then Decision(true, Notify(UnsavedChanges))
      else Decision(false, NoAction)
    case Run => Decision(true, CompileAndRun)
    case OpenFile(name) =>
      if name.None? then Decision(true, Notify(OpenUsage)) else Decision(true, Load(name.value))
    case ChangeDir(dir) =>
      if dir.None? then Decision(true, Notify(CdUsage)) else Decision(true, Chdir(dir.value))
    case MakeDir(dir) =>
      if dir.None? then Decision(true, Notify(MkdirUsage)) else Decision(true, Mkdir(dir.value))
    case ListDir(dir) => Decision(true, ShowListing(dir))
    case Help => Decision(true, ShowHelp)
    case Unknown(word) => Decision(true, Notify(UnknownCommand(word)))
  }

  /** handle_command(cmdline): the session ends exactly on "q !" (a lone
      "!" as second word), on "q" with no unsaved changes, and on "wq"
      when the buffer is named. A blank line does nothing. */
  function HandleCommand(line: string, changed: bool, named: bool): (d: Decision)
    ensures AllSpace(line) ==> d == Decision(true, NoAction)
    ensures !d.proceed <==>
      var ts := Tokens(line);
      && |ts| > 0
      && (|| (ts[0] == "q" && ((|ts| > 1 && ts[1] == "!") || !changed))
          || (ts[0] == "wq" && named))
  {
    Decide(Parse(line), changed, named)
  }

  /** The "q" branch of handle_command refuses exactly when quit() would. */
  lemma QuitCommandMatchesQuit(changed: bool, force: bool, named: bool)
    ensures Decide(Quit(force), changed, named).proceed == !QuitAllowed(changed, force)
  {
  }

  /** ":wq" saves and ends the session on a named buffer, and only asks for
      a file name otherwise. */
  lemma WriteQuitCommand(line: string, changed: bool, named: bool)
    requires Tokens(line) == ["wq"]
    ensures HandleCommand(line, changed, named)
            == if named then Decision(false, SaveCurrent) else Decision(true, Notify(NeedFilenameToQuit))
  {
    assert ParseWords(["wq"]) == WriteQuit;
  }

  /** ":q" ends the session only when nothing is unsaved. */
  lemma QuitCommand(line: string, changed: bool, named: bool)
    requires Tokens(line) == ["q"]
    ensures HandleCommand(line, changed, named)
            == if changed then Decision(true, Notify(UnsavedChanges)) else Decision(false, NoAction)
  {
    assert ParseWords(["q"]) == Quit(false);
  }

  /** ":q !" ends the session whatever is unsaved. */
  lemma ForcedQuitCommand(line: string, changed: bool, named: bool)
    requires Tokens(line) == ["q", "!"]
    ensures HandleCommand(line, changed, named) == Decision(false, NoAction)
  {
    assert ParseWords(["q", "!"]) == Quit(true);
  }

  /** ":w name" saves under that name, whatever the buffer is called. */
  lemma WriteAsCommand(line: string, name: string, changed: bool, named: bool)
    requires Tokens(line) == ["w", name]
    ensures HandleCommand(line, changed, named) == Decision(true, SaveAs(name))
  {
    assert ParseWords(["w", name]) == Write(Some(name));
  }

  /** ":w" saves under the buffer's own name, and only asks for one when
      there is none. */
  lemma WriteCommand(line: string, changed: bool, named: bool)
    requires Tokens(line) == ["w"]
    ensures HandleCommand(line, changed, named)
            == Decision(true, if named then SaveCurrent else Notify(NeedFilename))
  {
    assert ParseWords(["w"]) == Write(None);
  }

  /** ":r" compiles and runs, and never ends the session. */
  lemma RunCommand(line: string, changed: bool, named: bool)
    requires Tokens(line) == ["r"]
    ensures HandleCommand(line, changed, named) == Decision(true, CompileAndRun)
  {
    assert ParseWords(["r"]) == Run;
  }

  /** ":open name" asks for the file to be loaded. */
  lemma OpenFileCommand(line: string, name: string, changed: bool, named: bool)
    requires Tokens(line) == ["open", name]
    ensures HandleCommand(line, changed, named) == Decision(true, Load(name))
  {
    assert ParseWords(["open", name]) == OpenFile(Some(name));
  }

  /** "q!" written without a space is one word, which names no command, so
      it does not end the session even though the unsaved-changes message
      suggests it. */
  lemma QuitBangIsUnknown(line: string, changed: bool, named: bool)
    requires |line| == 2 && line[0] == 'q' && line[1] == '!'
    ensures HandleCommand(line, changed, named) == Decision(true, Notify(UnknownCommand(line)))
  {
    assert Tokens(line) == [line] by {
      TokensOfWordThen(line, "");
      assert line + "" == line;
    }
    assert line != "q" && line != "wq";
  }

  // ---- compile_and_run: the pipeline chosen from the file extension ----

  /** Index of the last occurrence of c in s, or -1. */
  function LastIndex(s: string, c: char): (i: int)
    ensures -1 <= i < |s|
    ensures i >= 0 ==> s[i] == c
    ensures forall j :: i < j < |s| ==> s[j] != c
  {
    if |s| == 0 then -1
    else if s[|s| - 1] == c then |s| - 1
    else LastIndex(s[..|s| - 1], c)
  }

  /** os.path.splitext(p)[1] for POSIX paths: from the last '.' of the last
      path component on, unless that component has only dots before it. */
  function Extension(p: string): (e: string)
    ensures |e| <= |p| && e == p[|p| - |e|..]
    ensures e == "" || (e[0] == '.' && forall i :: 1 <= i < |e| ==> e[i] != '.' && e[i] != '/')
    ensures e != "" ==> exists i :: LastIndex(p, '/') < i < |p| - |e| && p[i] != '.'
  {
    var dot := LastIndex(p, '.');
    var sep := LastIndex(p, '/');
    if dot > sep && exists i :: sep < i < dot && p[i] != '.' then p[dot..] else ""
  }

  function LowerChar(c: char): char {
    if 'A' <= c <= 'Z' then (c as int + 32) as char else c
  }

  /** str.lower() on the ASCII letters; other characters are kept. */
  function Lower(s: string): (r: string)
    ensures |r| == |s|
    ensures forall i :: 0 <= i < |s| ==> r[i] == LowerChar(s[i])
  {
    seq(|s|, i requires 0 <= i < |s| => LowerChar(s[i]))
  }

  /** How a file is run: by the Python interpreter, by compiling with the
      named compiler and running the result, or not at all. */
  datatype Pipeline = Interpret | CompileThenRun(compiler: string) | Unsupported(ext: string)

  /** The extension, lower-cased, selects the pipeline: the interpreter for
      .py, gcc for .c, g++ for .cpp, .cc and .cxx, rustc for .rs; any other
      extension (none included) is unsupported and reported as it is. */
  function PipelineFor(filename: string): (p: Pipeline)
    ensures var ext := Lower(Extension(filename));
      && (p == Interpret <==> ext == ".py")
      && (p == CompileThenRun("gcc") <==> ext == ".c")
      && (p == CompileThenRun("g++") <==> ext == ".cpp" || ext == ".cc" || ext == ".cxx")
      && (p == CompileThenRun("rustc") <==> ext == ".rs")
      && (p.Unsupported? <==> ext != ".py" && ext != ".c" && ext != ".cpp" && ext != ".cc" && ext != ".cxx" && ext != ".rs")
      && (p.Unsupported? ==> p.ext == ext)
  {
    var ext := Lower(Extension(filename));
    if ext == ".py" then Interpret
    else if ext == ".c" then CompileThenRun("gcc")
    else if ext == ".cpp" || ext == ".cc" || ext == ".cxx" then CompileThenRun("g++")
    else if ext == ".rs" then CompileThenRun("rustc")
    else Unsupported(ext)
  }

  datatype RunPlan = NoFilenameToRun | SaveFailedBeforeRun | Execute(pipeline: Pipeline)

  /** compile_and_run(): an unnamed buffer is refused; otherwise the buffer
      is saved first (saveOk is the save's outcome), even when the
      extension then turns out to be unsupported. */
  function PlanRun(filename: Option<string>, saveOk: bool): (r: RunPlan)
    ensures r == NoFilenameToRun <==> !Named(filename)
    ensures r == SaveFailedBeforeRun <==> Named(filename) && !saveOk
    ensures r.Execute? <==> Named(filename) && saveOk
    ensures r.Execute? ==> r.pipeline == PipelineFor(filename.value)
  {
    if !Named(filename) then NoFilenameToRun
    else if !saveOk then SaveFailedBeforeRun
    else Execute(PipelineFor(filename.value))
  }

  /** The processes a pipeline starts, in order: the interpreter on the
      file; or the compiler writing exe, then exe itself only when the
      compiler exited with 0; or nothing. */
  function Invocations(p: Pipeline, python: string, file: string, exe: string, compileStatus: int)
    : (cmds: seq<seq<string>>)
    ensures p.Unsupported? <==> |cmds| == 0
    ensures p.Interpret? ==> cmds == [[python, file]]
    ensures p.CompileThenRun? ==> cmds[0] == [p.compiler, file, "-o", exe]
    ensures p.CompileThenRun? ==> (|cmds| == 2 <==> compileStatus == 0)
    ensures |cmds| == 2 ==> cmds[1] == [exe]
    ensures p.CompileThenRun? && compileStatus != 0 ==> cmds == [[p.compiler, file, "-o", exe]]
  {
    match p
    case Interpret => [[python, file]]
    case CompileThenRun(compiler) =>
      var compile := [compiler, file, "-o", exe];
      if compileStatus != 0 then [compile] else [compile, [exe]]
    case Unsupported(_) => []
  }

  /** A name built from a stem and a dot-free, slash-free suffix has that
      suffix as its extension, provided the stem's last character is
      neither '/' nor '.'. */
  lemma ExtensionOfSuffixedName(stem: string, suffix: string)
    requires |stem| > 0 && stem[|stem| - 1] != '/' && stem[|stem| - 1] != '.'
    requires forall i :: 0 <= i < |suffix| ==> suffix[i] != '.' && suffix[i] != '/'
    ensures Extension(stem + "." + suffix) == "." + suffix
  {
    var p := stem + "." + suffix;
    var k := |stem|;
    assert p[k] == '.';
    assert forall j :: k < j < |p| ==> p[j] == suffix[j - k - 1];
    var dot := LastIndex(p, '.');
    var sep := LastIndex(p, '/');
    assert dot == k;
    assert p[k - 1] == stem[k - 1];
    assert sep < k - 1;
    assert sep < k - 1 < dot && p[k - 1] != '.';
    assert p[dot..] == "." + suffix;
  }

  lemma LowerDotted(x: string)
    ensures Lower("." + x) == "." + Lower(x)
  {
  }

  lemma DotPrefixCancels(x: string, y: string)
    ensures "." + x == "." + y <==> x == y
  {
    if "." + x == "." + y {
      assert x == ("." + x)[1..] && y == ("." + y)[1..];
    }
  }

  /** Such a name is run by the interpreter exactly when its suffix is "py"
      in any letter case. */
  lemma InterpretedExactlyForPy(stem: string, suffix: string)
    requires |stem| > 0 && stem[|stem| - 1] != '/' && stem[|stem| - 1] != '.'
    requires forall i :: 0 <= i < |suffix| ==> suffix[i] != '.' && suffix[i] != '/'
    ensures PipelineFor(stem + "." + suffix) == Interpret <==> Lower(suffix) == "py"
  {
    ExtensionOfSuffixedName(stem, suffix);
    LowerDotted(suffix);
    assert ".py" == "." + "py";
    DotPrefixCancels(Lower(suffix), "py");
  }

  /** The six supported extensions, each a dot and then a name. */
  lemma DottedNames(x: string)
    ensures ("." + x == ".py" <==> x == "py") && ("." + x == ".c" <==> x == "c")
    ensures ("." + x == ".rs" <==> x == "rs") && ("." + x == ".cpp" <==> x == "cpp")
    ensures ("." + x == ".cc" <==> x == "cc") && ("." + x == ".cxx" <==> x == "cxx")
  {
    assert ".py" == "." + "py" && ".c" == "." + "c" && ".rs" == "." + "rs";
    assert ".cpp" == "." + "cpp" && ".cc" == "." + "cc" && ".cxx" == "." + "cxx";
    DotPrefixCancels(x, "py");
    DotPrefixCancels(x, "c");
    DotPrefixCancels(x, "cpp");
    DotPrefixCancels(x, "cc");
    DotPrefixCancels(x, "cxx");
    DotPrefixCancels(x, "rs");
  }

  /** Such a name is compiled, and by which compiler, according to its
      suffix in any letter case; every other suffix is unsupported. */
  lemma CompiledBySuffix(stem: string, suffix: string)
    requires |stem| > 0 && stem[|stem| - 1] != '/' && stem[|stem| - 1] != '.'
    requires forall i :: 0 <= i < |suffix| ==> suffix[i] != '.' && suffix[i] != '/'
    ensures var p := PipelineFor(stem + "." + suffix);
            var x := Lower(suffix);
            && (p == CompileThenRun("gcc") <==> x == "c")
            && (p == CompileThenRun("g++") <==> x == "cpp" || x == "cc" || x == "cxx")
            && (p == CompileThenRun("rustc") <==> x == "rs")
            && (p.Unsupported? <==> x != "py" && x != "c" && x != "cpp" && x != "cc" && x != "cxx" && x != "rs")
  {
    ExtensionOfSuffixedName(stem, suffix);
    LowerDotted(suffix);
    DottedNames(Lower(suffix));
  }

  /** A hidden file, whose last component is a dot and then a dot-free
      name, has no extension: ".py" is not a Python file. */
  lemma HiddenFileHasNoExtension(dir: string, name: string)
    requires |dir| == 0 || dir[|dir| - 1] == '/'
    requires forall i :: 0 <= i < |name| ==> name[i] != '.' && name[i] != '/'
    ensures Extension(dir + "." + name) == ""
  {
    var p := dir + "." + name;
    var k := |dir|;
    assert p[k] == '.';
    assert forall j :: k < j < |p| ==> p[j] == name[j - k - 1];
    assert LastIndex(p, '.') == k;
    if k > 0 {
      assert p[k - 1] == '/';
      assert LastIndex(p, '/') == k - 1;
    } else {
      assert LastIndex(p, '/') == -1;
    }
  }

  /** A hidden file is never run, whatever its name. */
  lemma HiddenFileUnsupported(dir: string, name: string)
    requires |dir| == 0 || dir[|dir| - 1] == '/'
    requires forall i :: 0 <= i < |name| ==> name[i] != '.' && name[i] != '/'
    ensures PipelineFor(dir + "." + name) == Unsupported("")
  {
    HiddenFileHasNoExtension(dir, name);
    assert Lower("") == "";
  }

  /** A name whose last component has no extension is never run. */
  lemma NoExtensionUnsupported(name: string)
    requires forall i :: 0 <= i < |name| ==> name[i] != '.'
    ensures PipelineFor(name) == Unsupported("")
  {
    assert Extension(name) == "" by {
      assert LastIndex(name, '.') == -1;
    }
    assert Lower("") == "";
  }
}

=== FILE: editor.dfy ===
/** One pass of the editor's key loop (RawIDE.run_curses / run_dumb): the
    viewport is brought to the cursor for the frame about to be drawn, then
    one decoded key is handled; a ':' in Navigation reads a command line,
    whose decision may save or open the file and may end the session. The
    outcomes of the file reads and writes are parameters. */
module Editor {
  import opened TextBuffer
  import opened Modes
  import opened Commands
  import Viewport

  /** What the file system answers this turn: the text of a file being
      opened (None when it cannot be read) and whether a write succeeds. */
  datatype Io = Io(read: Option<string>, writeOk: bool)

  datatype Session = Session(mode: Mode, buf: Buffer, view: Viewport.View, running: bool)

  /** The buffer after a save attempt: the saved buffer, or the old one
      when save_file caught an error. */
  function AfterSave(b: Buffer, o: SaveOutcome): Buffer {
    if o.Saved? then o.buf else b
  }

  /** The part of a command's effect that reaches the buffer: saving
      (also done by ":r" before running) and opening. Directory commands,
      listings and help leave it alone. */
  function Perform(b: Buffer, a: Action, io: Io): (r: Buffer)
    requires Valid(b)
    ensures Valid(r)
    ensures a.Load? ==> r == Open(b, io.read, a.name)
    ensures !a.Load? ==>
      SameText(r, b) && r.undo == b.undo && r.redo == b.redo && r.limit == b.limit
    ensures !(a.Load? || a.SaveAs? || a.SaveCurrent? || a.CompileAndRun?) ==> r == b
    ensures a.SaveAs? ==> (!r.changed <==> io.writeOk || !b.changed)
    ensures a.SaveAs? && io.writeOk ==> r.filename == Some(a.name)
    ensures a.SaveCurrent? ==> (!r.changed <==> (io.writeOk && b.filename.Some?) || !b.changed)
    ensures a.CompileAndRun? ==> (!r.changed <==> (io.writeOk && Named(b.filename)) || !b.changed)
    ensures !a.Load? ==> r.filename == b.filename || (io.writeOk && a.SaveAs? && r.filename == Some(a.name))
  {
    match a
    case SaveAs(name) => AfterSave(b, Save(b, Some(name), io.writeOk))
    case SaveCurrent => AfterSave(b, Save(b, None, io.writeOk))
    case CompileAndRun =>
      if Named(b.filename) then AfterSave(b, Save(b, None, io.writeOk)) else b
    case Load(name) => Open(b, io.read, name)
    case _ => b
  }

  /** One turn of the loop on a running session. */
  function Tick(s: Session, key: Key, line: string, io: Io, height: int, width: int): (t: Session)
    requires s.running && Valid(s.buf)
    ensures Valid(t.buf)
    ensures t.view == Viewport.EnsureCursorVisible(s.view, s.buf.cx, s.buf.cy, height, width)
    ensures height >= 3 && width >= 2 ==>
      Viewport.Shows(t.view, s.buf.cx, s.buf.cy, height, width)
    ensures !t.running <==>
      && s.mode.Navigation? && key == Char(':')
      && !HandleCommand(line, s.buf.changed, Named(s.buf.filename)).proceed
    ensures !t.running ==>
      var ts := Tokens(line); |ts| > 0 && (ts[0] == "q" || ts[0] == "wq")
    ensures !(s.mode.Navigation? && key == Char(':')) ==>
      t.mode == Step(s.mode, s.buf, key).mode && t.buf == Step(s.mode, s.buf, key).buf
  {
    var v := Viewport.EnsureCursorVisible(s.view, s.buf.cx, s.buf.cy, height, width);
    var r := Step(s.mode, s.buf, key);
    if !r.prompt then Session(r.mode, r.buf, v, true)
    else
      var d := HandleCommand(line, s.buf.changed, Named(s.buf.filename));
      Session(r.mode, Perform(r.buf, d.action, io), v, d.proceed)
  }

  /** Typing a command: ':' in Navigation, then the words. */
  predicate AtPrompt(s: Session, key: Key) {
    s.running && Valid(s.buf) && s.mode.Navigation? && key == Char(':')
  }

  /** At the prompt the turn is the command's decision, carried out. */
  lemma TickAtPrompt(s: Session, line: string, io: Io, height: int, width: int)
    requires AtPrompt(s, Char(':'))
    ensures var d := HandleCommand(line, s.buf.changed, Named(s.buf.filename));
            var t := Tick(s, Char(':'), line, io, height, width);
            t.mode == Navigation && t.buf == Perform(s.buf, d.action, io) && t.running == d.proceed
  {
    var r := Step(s.mode, s.buf, Char(':'));
    assert r == Reaction(Navigation, s.buf, Quiet, true);
  }

  /** ":wq" on a named buffer ends the session even when the write fails,
      and the unsaved changes are then lost. */
  lemma WriteQuitEndsEvenIfWriteFails(s: Session, line: string, io: Io, height: int, width: int)
    requires AtPrompt(s, Char(':')) && Tokens(line) == ["wq"]
    requires Named(s.buf.filename) && !io.writeOk
    ensures var t := Tick(s, Char(':'), line, io, height, width);
            !t.running && t.buf.changed == s.buf.changed
  {
    WriteQuitCommand(line, s.buf.changed, Named(s.buf.filename));
    TickAtPrompt(s, line, io, height, width);
  }

  /** ":wq" on an unnamed buffer keeps the session going, buffer untouched. */
  lemma WriteQuitNeedsName(s: Session, line: string, io: Io, height: int, width: int)
    requires AtPrompt(s, Char(':')) && Tokens(line) == ["wq"] && !Named(s.buf.filename)
    ensures var t := Tick(s, Char(':'), line, io, height, width);
            t.running && t.buf == s.buf
  {
    WriteQuitCommand(line, s.buf.changed, Named(s.buf.filename));
    TickAtPrompt(s, line, io, height, width);
  }

  /** ":q" with unsaved changes is refused, buffer untouched. */
  lemma QuitRefusedWhenChanged(s: Session, line: string, io: Io, height: int, width: int)
    requires AtPrompt(s, Char(':')) && Tokens(line) == ["q"] && s.buf.changed
    ensures var t := Tick(s, Char(':'), line, io, height, width);
            t.running && t.buf == s.buf
  {
    QuitCommand(line, s.buf.changed, Named(s.buf.filename));
    TickAtPrompt(s, line, io, height, width);
  }

  /** ":q !" ends the session whatever the dirty flag says. */
  lemma ForcedQuitEnds(s: Session, line: string, io: Io, height: int, width: int)
    requires AtPrompt(s, Char(':')) && Tokens(line) == ["q", "!"]
    ensures !Tick(s, Char(':'), line, io, height, width).running
  {
    ForcedQuitCommand(line, s.buf.changed, Named(s.buf.filename));
    TickAtPrompt(s, line, io, height, width);
  }

  /** ":w name" that is written leaves the text alone, clean and under
      the new name; the session goes on. */
  lemma WriteAsSavesAndNames(s: Session, line: string, name: string, io: Io, height: int, width: int)
    requires AtPrompt(s, Char(':')) && Tokens(line) == ["w", name] && io.writeOk
    ensures var t := Tick(s, Char(':'), line, io, height, width);
            && t.running && t.mode.Navigation?
            && SameText(t.buf, s.buf) && !t.buf.changed && t.buf.filename == Some(name)
  {
    WriteAsCommand(line, name, s.buf.changed, Named(s.buf.filename));
    TickAtPrompt(s, line, io, height, width);
  }

  /** ":w name" whose write fails keeps the buffer as it was, dirty flag
      and name included. */
  lemma WriteAsFailureKeepsBuffer(s: Session, line: string, name: string, io: Io, height: int, width: int)
    requires AtPrompt(s, Char(':')) && Tokens(line) == ["w", name] && !io.writeOk
    ensures var t := Tick(s, Char(':'), line, io, height, width);
            t.running && t.buf == s.buf
  {
    WriteAsCommand(line, name, s.buf.changed, Named(s.buf.filename));
    TickAtPrompt(s, line, io, height, width);
  }

  /** ":r" on a named buffer saves it first, so a successful write leaves
      it clean; the session goes on whatever the program does. */
  lemma RunSavesFirst(s: Session, line: string, io: Io, height: int, width: int)
    requires AtPrompt(s, Char(':')) && Tokens(line) == ["r"]
    requires Named(s.buf.filename) && io.writeOk
    ensures var t := Tick(s, Char(':'), line, io, height, width);
            t.running && SameText(t.buf, s.buf) && !t.buf.changed
  {
    RunCommand(line, s.buf.changed, Named(s.buf.filename));
    TickAtPrompt(s, line, io, height, width);
  }

  /** ":open name" hands the file system's answer to Buffer.load_from_file. */
  lemma OpenCommand(s: Session, line: string, name: string, io: Io, height: int, width: int)
    requires AtPrompt(s, Char(':')) && Tokens(line) == ["open", name]
    ensures var t := Tick(s, Char(':'), line, io, height, width);
            t.running && t.mode.Navigation? && t.buf == Open(s.buf, io.read, name)
  {
    OpenFileCommand(line, name, s.buf.changed, Named(s.buf.filename));
    TickAtPrompt(s, line, io, height, width);
  }

  /** ":open name" on a file that cannot be read keeps the text, the
      cursor, the dirty flag and the mode, but the history has still
      recorded the current state and dropped the redo stack. */
  lemma OpenUnreadableFile(s: Session, line: string, name: string, writeOk: bool, height: int, width: int)
    requires AtPrompt(s, Char(':')) && Tokens(line) == ["open", name]
    ensures var t := Tick(s, Char(':'), line, Io(None, writeOk), height, width);
            && t.running && t.mode.Navigation?
            && SameText(t.buf, s.buf) && t.buf.changed == s.buf.changed
            && Recorded(s.buf, t.buf)
  {
    OpenCommand(s, line, name, Io(None, writeOk), height, width);
  }

  /** ":open name" on a readable file shows its lines from the top, clean. */
  lemma OpenReadableFile(s: Session, line: string, name: string, text: string, height: int, width: int)
    requires AtPrompt(s, Char(':')) && Tokens(line) == ["open", name]
    ensures var t := Tick(s, Char(':'), line, Io(Some(text), true), height, width);
            && t.running && t.buf.lines == LineFormat.Reload(text)
            && t.buf.cx == 0 && t.buf.cy == 0 && !t.buf.changed
            && t.buf.filename == Some(name)
  {
    OpenCommand(s, line, name, Io(Some(text), true), height, width);
  }
}

=== FILE: history.dfy ===
/** Properties that relate several buffer operations: the inverse pairs
    (newline/backspace, insert/backspace, the arrow moves), undo/redo
    symmetry, and undoing a run of edits. */
module History {
  import opened TextBuffer
  import LineFormat

  /** The three editing primitives the insertion mode can reach. */
  datatype Edit = Type(text: string) | Erase | Split

  /** Whether the edit pushes a snapshot: all do except backspace at the
      document start. */
  predicate Pushes(b: Buffer, e: Edit) {
    !(e.Erase? && b.cx == 0 && b.cy == 0)
  }

  function Apply(b: Buffer, e: Edit): (r: Buffer)
    requires Valid(b)
    ensures Valid(r) && r.limit == b.limit && |r.undo| <= |b.undo| + 1
    ensures Pushes(b, e) ==> Recorded(b, r)
    ensures !Pushes(b, e) ==> r == b
  {
    match e
    case Type(t) => InsertChar(b, t)
    case Erase => Backspace(b)
    case Split => Newline(b)
  }

  /** The edits applied left to right, with the number of snapshots pushed. */
  function ApplyAll(b: Buffer, es: seq<Edit>): (r: (Buffer, nat))
    requires Valid(b)
    ensures Valid(r.0) && r.1 <= |es|
    decreases |es|
  {
    if |es| == 0 then (b, 0)
    else
      var next := ApplyAll(Apply(b, es[0]), es[1..]);
      (next.0, next.1 + if Pushes(b, es[0]) then 1 else 0)
  }

  /** undo() called n times (each call that finds the stack empty is a no-op). */
  function UndoTimes(b: Buffer, n: nat): (r: Buffer)
    requires Valid(b)
    ensures Valid(r)
  {
    if n == 0 then b else Undo(UndoTimes(b, n - 1)).1
  }

  /** An edit that pushed is reverted by one undo: the text and the undo
      stack are as before the edit; the redo stack holds the edited state. */
  lemma UndoRevertsEdit(b: Buffer, e: Edit)
    requires Valid(b) && Pushes(b, e) && |b.undo| < b.limit
    ensures Undo(Apply(b, e)).0
    ensures SameText(Undo(Apply(b, e)).1, b)
    ensures Undo(Apply(b, e)).1.undo == b.undo
    ensures Undo(Apply(b, e)).1.redo == [Snap(Apply(b, e))]
  {
    var a := Apply(b, e);
    assert a.undo == b.undo + [Snap(b)];
    assert a.redo == [];
  }

  /** One more undo on a buffer whose text and undo stack are those of c,
      where c was made from b by pushing b's state: b's text and stack. */
  lemma UndoAfterPush(b: Buffer, c: Buffer, x: Buffer, n: nat)
    requires Valid(b) && Valid(c) && Valid(x)
    requires c.undo == b.undo + [Snap(b)]
    requires SameText(UndoTimes(x, n), c) && UndoTimes(x, n).undo == c.undo
    ensures SameText(UndoTimes(x, n + 1), b) && UndoTimes(x, n + 1).undo == b.undo
  {
    UndoTimesSucc(x, n);
    assert c.undo[..|c.undo| - 1] == b.undo;
  }

  lemma {:induction false} ApplyAllCons(b: Buffer, es: seq<Edit>)
    requires Valid(b) && |es| > 0
    ensures var rest := ApplyAll(Apply(b, es[0]), es[1..]);
            ApplyAll(b, es) == (rest.0, rest.1 + if Pushes(b, es[0]) then 1 else 0)
  {
    var c := Apply(b, es[0]);
    var next := ApplyAll(c, es[1..]);
    assert ApplyAll(b, es) == (next.0, next.1 + if Pushes(b, es[0]) then 1 else 0);
  }

  lemma {:induction false} UndoTimesSucc(b: Buffer, n: nat)
    requires Valid(b)
    ensures UndoTimes(b, n + 1) == Undo(UndoTimes(b, n)).1
  {
  }

  /** n undos after n edits that recorded n snapshots bring back the text
      and undo stack from before the edits, provided the history never hit
      its limit (otherwise the oldest states are evicted). */
  lemma {:induction false} UndoingAllEditsRestores(b: Buffer, es: seq<Edit>)
    requires Valid(b) && |b.undo| + |es| <= b.limit
    ensures SameText(UndoTimes(ApplyAll(b, es).0, ApplyAll(b, es).1), b)
    ensures UndoTimes(ApplyAll(b, es).0, ApplyAll(b, es).1).undo == b.undo
    decreases |es|
  {
    hide Apply;
    if |es| > 0 {
      var e := es[0];
      var c := Apply(b, e);
      var rest := ApplyAll(c, es[1..]);
      ApplyAllCons(b, es);
      UndoingAllEditsRestores(c, es[1..]);
      if Pushes(b, e) {
        assert c.undo == b.undo + [Snap(b)];
        UndoAfterPush(b, c, rest.0, rest.1);
      }
    }
  }

  /** At capacity an edit evicts the oldest snapshot, which undo can then
      no longer reach; the stack stays at the limit. */
  lemma EditAtCapacityDropsOldest(b: Buffer, e: Edit)
    requires Valid(b) && Pushes(b, e) && 0 < b.limit == |b.undo|
    ensures Apply(b, e).undo == b.undo[1..] + [Snap(b)]
    ensures |Apply(b, e).undo| == b.limit
  {
  }

  /** After an edit there is nothing to redo, whatever was undone before. */
  lemma NoRedoAfterEdit(b: Buffer, e: Edit)
    requires Valid(b) && Pushes(b, e)
    ensures Redo(Apply(b, e)) == (false, Apply(b, e))
  {
  }

  /** undo immediately followed by redo gives back the very same buffer,
      stacks included; only the dirty flag is now set. */
  lemma UndoThenRedo(b: Buffer)
    requires Valid(b) && |b.undo| > 0
    ensures Redo(Undo(b).1) == (true, b.(changed := true))
  {
    var u := Undo(b).1;
    assert u.undo + [Snap(u)] == b.undo;
    assert u.redo[..|u.redo| - 1] == b.redo;
  }

  /** redo immediately followed by undo gives back the same buffer too. */
  lemma RedoThenUndo(b: Buffer)
    requires Valid(b) && |b.redo| > 0
    ensures Undo(Redo(b).1) == (true, b.(changed := true))
  {
    var r := Redo(b).1;
    assert r.redo + [Snap(r)] == b.redo;
    assert r.undo[..|r.undo| - 1] == b.undo;
  }

  /** A backspace straight after newline joins the two halves again. */
  lemma BackspaceUndoesNewline(b: Buffer)
    requires Valid(b)
    ensures SameText(Backspace(Newline(b)), b)
  {
    var n := Newline(b);
    var r := Backspace(n);
    assert r.lines[b.cy] == b.lines[b.cy];
    assert r.lines == r.lines[..b.cy] + [r.lines[b.cy]] + r.lines[b.cy + 1..];
    assert b.lines == b.lines[..b.cy] + [b.lines[b.cy]] + b.lines[b.cy + 1..];
  }

  /** A backspace straight after typing one character removes it again. */
  lemma BackspaceUndoesTyping(b: Buffer, c: char)
    requires Valid(b)
    ensures SameText(Backspace(InsertChar(b, [c])), b)
  {
    var t := InsertChar(b, [c]);
    var r := Backspace(t);
    var line := b.lines[b.cy];
    assert r.lines[b.cy] == line[..b.cx] + line[b.cx..];
    assert line[..b.cx] + line[b.cx..] == line;
  }

  /** Left then right returns to the same place, except at the document start. */
  lemma RightUndoesLeft(b: Buffer)
    requires Valid(b) && !(b.cx == 0 && b.cy == 0)
    ensures MoveRight(MoveLeft(b)) == b
  {
  }

  /** Right then left returns to the same place, except at the document end. */
  lemma LeftUndoesRight(b: Buffer)
    requires Valid(b) && !(b.cy + 1 == |b.lines| && b.cx == |b.lines[b.cy]|)
    ensures MoveLeft(MoveRight(b)) == b
  {
  }

  /** Up then down returns to the same place when the column fits the line above. */
  lemma DownUndoesUp(b: Buffer)
    requires Valid(b) && b.cy > 0 && b.cx <= |b.lines[b.cy - 1]|
    ensures MoveDown(MoveUp(b)) == b
  {
  }

  /** Down then up returns to the same place when the column fits the line below. */
  lemma UpUndoesDown(b: Buffer)
    requires Valid(b) && b.cy + 1 < |b.lines| && b.cx <= |b.lines[b.cy + 1]|
    ensures MoveUp(MoveDown(b)) == b
  {
  }

  /** Saving and opening the written text gives back a break-free document
      exactly when it does not end in an empty line (or is one line). */
  lemma OpenAfterSave(b: Buffer, arg: Option<string>, name: string)
    requires Valid(b) && LineFormat.AllBreakFree(b.lines)
    requires arg.Some? || b.filename.Some?
    ensures Save(b, arg, true).Saved?
    ensures var s := Save(b, arg, true);
            Open(s.buf, Some(s.text), name).lines == b.lines
            <==> (|b.lines| == 1 || b.lines[|b.lines| - 1] != "")
  {
    LineFormat.ReloadAfterJoin(b.lines);
  }

  /** A worked example: split "ab|cd", type "xy", undo twice. */
  lemma SplitTypeUndoUndo()
    ensures var b := Buffer(["ab", "cd"], None, 2, 0, false, [], [], DefaultUndoLimit);
            var s := Newline(b);
            var t := InsertChar(s, "xy");
            var u1 := Undo(t).1;
            var u2 := Undo(u1).1;
            && s.lines == ["ab", "", "cd"] && s.cy == 1 && s.cx == 0
            && t.lines == ["ab", "xy", "cd"] && t.cy == 1 && t.cx == 2
            && u1.lines == ["ab", "", "cd"] && u1.cy == 1 && u1.cx == 0
            && u2.lines == ["ab", "cd"] && u2.cy == 0 && u2.cx == 2
  {
    var b := Buffer(["ab", "cd"], None, 2, 0, false, [], [], DefaultUndoLimit);
    var s := Newline(b);
    assert "ab"[..2] == "ab" && "ab"[2..] == "";
    assert s.lines == ["ab", "", "cd"];
    var t := InsertChar(s, "xy");
    assert t.lines[1] == "xy";
    assert t.lines == ["ab", "xy", "cd"];
  }
}

=== FILE: lineformat.dfy ===
/** The on-disk text format of a document. Saving writes the lines joined by
    '\n' (Buffer.save); loading splits the file text with Python's
    str.splitlines and turns an empty result into one empty line
    (Buffer.load_from_file). The two are not inverse: this module states
    exactly when they are. */
module LineFormat {

  /** The line boundaries str.splitlines recognises; "\r\n" counts as one. */
  predicate IsBreak(c: char) {
    || c == '\n' || c == '\r'
    || c == '\U{000B}' || c == '\U{000C}'
    || c == '\U{001C}' || c == '\U{001D}' || c == '\U{001E}'
    || c == '\U{0085}' || c == '\U{2028}' || c == '\U{2029}'
  }

  predicate BreakFree(s: string) {
    forall i :: 0 <= i < |s| ==> !IsBreak(s[i])
  }

  predicate AllBreakFree(lines: seq<string>) {
    forall i :: 0 <= i < |lines| ==> BreakFree(lines[i])
  }

  /** Total number of characters in the lines. */
  function Width(lines: seq<string>): nat {
    if |lines| == 0 then 0 else |lines[0]| + Width(lines[1..])
  }

  /** '\n'.join(lines): the first line starts the text, a '\n' follows it
      when more lines come, and one separator sits between each pair. */
  function Join(lines: seq<string>): (s: string)
    ensures |lines| == 0 ==> s == ""
    ensures |lines| >= 1 ==> |s| == Width(lines) + |lines| - 1
    ensures |lines| >= 1 ==> s[..|lines[0]|] == lines[0]
    ensures |lines| >= 2 ==> s[|lines[0]|] == '\n'
  {
    if |lines| == 0 then ""
    else if |lines| == 1 then lines[0]
    else lines[0] + "\n" + Join(lines[1..])
  }

  /** Index of the first line boundary in s, or |s| when there is none. */
  function LineEnd(s: string): (k: nat)
    ensures k <= |s|
    ensures forall i :: 0 <= i < k ==> !IsBreak(s[i])
    ensures k < |s| ==> IsBreak(s[k])
  {
    if |s| == 0 || IsBreak(s[0]) then 0 else 1 + LineEnd(s[1..])
  }

  /** Number of characters the boundary at k occupies: two for "\r\n". */
  function BoundaryWidth(s: string, k: nat): (w: nat)
    requires k < |s|
    ensures 1 <= w <= |s| - k
  {
    if s[k] == '\r' && k + 1 < |s| && s[k + 1] == '\n' then 2 else 1
  }

  /** str.splitlines(): the text between boundaries; a final boundary does
      not start another line. */
  function SplitLines(s: string): (ls: seq<string>)
    ensures AllBreakFree(ls)
    ensures |ls| == 0 <==> |s| == 0
    decreases |s|
  {
    if |s| == 0 then []
    else
      var k := LineEnd(s);
      if k == |s| then [s]
      else [s[..k]] + SplitLines(s[k + BoundaryWidth(s, k)..])
  }

  /** The lines a loaded file yields: splitlines, or one empty line. */
  function Reload(text: string): (ls: seq<string>)
    ensures |ls| >= 1
    ensures AllBreakFree(ls)
    ensures |text| > 0 ==> ls == SplitLines(text)
  {
    var parts := SplitLines(text);
    if |parts| == 0 then [""] else parts
  }

  lemma {:induction false} LineEndAfterBreakFree(a: string, t: string)
    requires BreakFree(a)
    ensures LineEnd(a + t) == |a| + LineEnd(t)
    decreases |a|
  {
    if |a| > 0 {
      assert (a + t)[1..] == a[1..] + t;
      LineEndAfterBreakFree(a[1..], t);
    } else {
      assert a + t == t;
    }
  }

  /** SplitLines at a one-character boundary, unfolded once. */
  lemma SplitLinesAt(s: string, k: nat)
    requires k < |s| && LineEnd(s) == k && BoundaryWidth(s, k) == 1
    ensures SplitLines(s) == [s[..k]] + SplitLines(s[k + 1..])
  {
  }

  /** A boundary character after a break-free prefix ends the first line. */
  lemma SplitAtBoundary(a: string, c: char, t: string)
    requires BreakFree(a) && IsBreak(c)
    requires c == '\r' ==> |t| == 0 || t[0] != '\n'
    ensures SplitLines(a + [c] + t) == [a] + SplitLines(t)
  {
    var s := a + [c] + t;
    var k := |a|;
    assert k < |s| && s[..k] == a && s[k + 1..] == t;
    assert LineEnd(s) == k by {
      assert s == a + ([c] + t);
      LineEndAfterBreakFree(a, [c] + t);
    }
    assert BoundaryWidth(s, k) == 1 by {
      assert s[k] == c;
      if c == '\r' && k + 1 < |s| {
        assert s[k + 1] == t[0];
      }
    }
    SplitLinesAt(s, k);
  }

  /** "\r\n" after a break-free prefix is one boundary: it ends the first
      line and no empty line follows. */
  lemma SplitAtCrLf(a: string, t: string)
    requires BreakFree(a)
    ensures SplitLines(a + "\r\n" + t) == [a] + SplitLines(t)
  {
    var s := a + "\r\n" + t;
    var k := |a|;
    assert s == a + ("\r\n" + t) && s[..k] == a && s[k + 2..] == t;
    LineEndAfterBreakFree(a, "\r\n" + t);
    assert s[k] == '\r' && s[k + 1] == '\n';
  }

  lemma JoinCons(lines: seq<string>)
    requires |lines| >= 2
    ensures Join(lines) == lines[0] + ['\n'] + Join(lines[1..])
  {
  }

  /** A non-empty break-free text is one line. */
  lemma SplitBreakFree(s: string)
    requires BreakFree(s) && s != ""
    ensures SplitLines(s) == [s]
  {
    LineEndAfterBreakFree(s, "");
    assert s + "" == s;
  }

  lemma AllBreakFreeCons(l: string, ls: seq<string>)
    requires AllBreakFree([l] + ls)
    ensures BreakFree(l) && AllBreakFree(ls)
  {
    assert ([l] + ls)[0] == l;
    forall i | 0 <= i < |ls| ensures BreakFree(ls[i]) {
      assert ([l] + ls)[i + 1] == ls[i];
    }
  }

  /** The first line of a saved multi-line document comes back first. */
  lemma SplitAfterJoinStep(l0: string, rest: seq<string>)
    requires BreakFree(l0) && |rest| >= 1
    ensures SplitLines(Join([l0] + rest)) == [l0] + SplitLines(Join(rest))
  {
    var lines := [l0] + rest;
    assert lines[0] == l0 && lines[1..] == rest;
    JoinCons(lines);
    SplitAtBoundary(l0, '\n', Join(rest));
  }

  lemma DropLastOfCons<T>(x: T, xs: seq<T>)
    requires |xs| >= 1
    ensures ([x] + xs)[..|xs|] == [x] + xs[..|xs| - 1]
  {
  }

  /** Splitting the saved text gives back the lines, except that a final
      empty line is lost (the file then ends in '\n', which splitlines
      does not turn into a line). */
  lemma {:induction false} SplitAfterJoin(lines: seq<string>)
    requires |lines| >= 1 && AllBreakFree(lines)
    ensures SplitLines(Join(lines))
            == if lines[|lines| - 1] == "" then lines[..|lines| - 1] else lines
    decreases |lines|
  {
    if |lines| == 1 {
      if lines[0] != "" {
        SplitBreakFree(lines[0]);
      }
    } else {
      var l0, rest := lines[0], lines[1..];
      assert lines == [l0] + rest && rest[|rest| - 1] == lines[|lines| - 1];
      AllBreakFreeCons(l0, rest);
      SplitAfterJoinStep(l0, rest);
      SplitAfterJoin(rest);
      if lines[|lines| - 1] == "" {
        DropLastOfCons(l0, rest);
      }
    }
  }

  /** Saving and reloading reproduces a break-free document exactly when its
      last line is non-empty or it is a single line. */
  lemma ReloadAfterJoin(lines: seq<string>)
    requires |lines| >= 1 && AllBreakFree(lines)
    ensures Reload(Join(lines)) == lines <==> (|lines| == 1 || lines[|lines| - 1] != "")
  {
    SplitAfterJoin(lines);
    if |lines| == 1 && lines[0] == "" {
      assert Join(lines) == "";
      assert lines == [""];
    }
    if |lines| > 1 && lines[|lines| - 1] == "" {
      var r := Reload(Join(lines));
      assert |r| == |lines| - 1 || r == [""];
    }
  }

  /** A '\r' inside a line becomes a line boundary on reload: the line
      comes back as two (one, when nothing follows the '\r'). */
  lemma CarriageReturnSplitsLine(a: string, b: string)
    requires BreakFree(a) && BreakFree(b)
    ensures Reload(Join([a + "\r" + b])) == if b == "" then [a] else [a, b]
  {
    assert Join([a + "\r" + b]) == a + ['\r'] + b;
    SplitAtBoundary(a, '\r', b);
    if b != "" {
      SplitBreakFree(b);
    }
  }

  /** Text whose only boundaries are single '\n' characters and which does
      not end in one is reproduced by load followed by save. */
  lemma {:induction false} JoinAfterSplit(s: string)
    requires forall i :: 0 <= i < |s| ==> (IsBreak(s[i]) ==> s[i] == '\n')
    requires |s| == 0 || s[|s| - 1] != '\n'
    ensures Join(Reload(s)) == s
    decreases |s|
  {
    if |s| > 0 {
      var k := LineEnd(s);
      if k < |s| {
        var head, rest := s[..k], s[k + 1..];
        assert s[k] == '\n' && |rest| > 0 && rest[|rest| - 1] == s[|s| - 1];
        assert s == head + "\n" + rest;
        assert forall i :: 0 <= i < |rest| ==> (IsBreak(rest[i]) ==> rest[i] == '\n') by {
          forall i | 0 <= i < |rest| ensures IsBreak(rest[i]) ==> rest[i] == '\n' {
            assert rest[i] == s[k + 1 + i];
          }
        }
        JoinAfterSplit(rest);
        var tail := SplitLines(rest);
        assert SplitLines(s) == [head] + tail by {
          SplitLinesAt(s, k);
        }
        JoinCons([head] + tail);
        assert ([head] + tail)[1..] == tail;
      }
    }
  }
}

=== FILE: modes.dfy ===
/** The two-state input machine of the key loops (RawIDE.run_curses and
    RawIDE.run_dumb share it): Navigation, which the source calls 'command'
    mode, and Insertion, its 'editor' mode. Keys arrive already decoded. */
module Modes {
  import opened TextBuffer

  datatype Mode = Navigation | Insertion

  datatype Direction = Left | Right | Up | Down

  /** Decoded keys: Esc, the undo chord (Ctrl+Z), the redo chord (Ctrl+U),
      an arrow, Enter, Erase (the backspace/delete key), Tab, any other
      character (one that is Plain, below), and Other for keys the loops
      ignore. */
  datatype Key =
    | Esc
    | UndoChord
    | RedoChord
    | Arrow(dir: Direction)
    | Enter
    | Erase
    | Tab
    | Char(c: char)
    | Other

  /** The transient status text a key produces. */
  datatype Notice = Quiet | Undone | NothingToUndo | Redone | NothingToRedo

  /** The next mode and buffer; prompt asks the loop to read a ':' command. */
  datatype Reaction = Reaction(mode: Mode, buf: Buffer, notice: Notice, prompt: bool)

  /** Tab inserts four spaces as one edit. */
  const TabText: string := "    "

  /** An arrow key: the buffer's move in that direction. */
  function Move(b: Buffer, d: Direction): (r: Buffer)
    requires Valid(b)
    ensures Valid(r) && OnlyCursorMoved(b, r)
    ensures d == Left ==> r == MoveLeft(b)
    ensures d == Right ==> r == MoveRight(b)
    ensures d == Up ==> r == MoveUp(b)
    ensures d == Down ==> r == MoveDown(b)
  {
    match d
    case Left => MoveLeft(b)
    case Right => MoveRight(b)
    case Up => MoveUp(b)
    case Down => MoveDown(b)
  }

  /** Navigation: arrows move, 'i' enters Insertion, ':' opens the prompt,
      every other key is ignored. */
  function NavigationKey(b: Buffer, key: Key): (r: Reaction)
    requires Valid(b)
    ensures Valid(r.buf) && OnlyCursorMoved(b, r.buf) && r.notice == Quiet
    ensures r.prompt <==> key == Char(':')
    ensures r.mode.Insertion? <==> key == Char('i')
    ensures key.Arrow? ==> r.buf == Move(b, key.dir)
    ensures !key.Arrow? ==> r.buf == b
  {
    match key
    case Arrow(d) => Reaction(Navigation, Move(b, d), Quiet, false)
    case Char(c) =>
      if c == 'i' then Reaction(Insertion, b, Quiet, false)
      else if c == ':' then Reaction(Navigation, b, Quiet, true)
      else Reaction(Navigation, b, Quiet, false)
    case _ => Reaction(Navigation, b, Quiet, false)
  }

  /** Insertion: arrows move, Enter splits the line, Erase deletes
      backwards, Tab inserts four spaces, any other character (':'
      included) is inserted as it is. */
  function InsertionKey(b: Buffer, key: Key): (r: Reaction)
    requires Valid(b)
    ensures Valid(r.buf) && r.mode.Insertion? && r.notice == Quiet && !r.prompt
    ensures key.Arrow? ==> r.buf == Move(b, key.dir)
    ensures key == Enter ==> r.buf == Newline(b)
    ensures key == Erase ==> r.buf == Backspace(b)
    ensures key == Tab ==> r.buf == InsertChar(b, TabText)
    ensures key.Char? ==> r.buf == InsertChar(b, [key.c])
    ensures key.Esc? || key.UndoChord? || key.RedoChord? || key.Other? ==> r.buf == b
  {
    match key
    case Arrow(d) => Reaction(Insertion, Move(b, d), Quiet, false)
    case Enter => Reaction(Insertion, Newline(b), Quiet, false)
    case Erase => Reaction(Insertion, Backspace(b), Quiet, false)
    case Tab => Reaction(Insertion, InsertChar(b, TabText), Quiet, false)
    case Char(c) => Reaction(Insertion, InsertChar(b, [c]), Quiet, false)
    case _ => Reaction(Insertion, b, Quiet, false)
  }

  /** One key: Esc, then the undo and redo chords, are handled the same in
      both modes and before anything mode-specific. */
  function Step(mode: Mode, b: Buffer, key: Key): (r: Reaction)
    requires Valid(b)
    ensures Valid(r.buf)
    ensures key == Esc ==> r == Reaction(Navigation, b, Quiet, false)
    ensures key == UndoChord ==> r.mode == mode && (r.notice == Undone <==> |b.undo| > 0)
    ensures key == RedoChord ==> r.mode == mode && (r.notice == Redone <==> |b.redo| > 0)
    ensures key == UndoChord ==> r.notice == if |b.undo| > 0 then Undone else NothingToUndo
    ensures key == RedoChord ==> r.notice == if |b.redo| > 0 then Redone else NothingToRedo
    ensures !(key.UndoChord? || key.RedoChord?) ==> r.notice == Quiet
    ensures r.prompt <==> mode.Navigation? && key == Char(':')
    ensures r.mode != mode <==>
      (mode.Insertion? && key.Esc?) || (mode.Navigation? && key == Char('i'))
    ensures key == UndoChord ==> r.buf == Undo(b).1
    ensures key == RedoChord ==> r.buf == Redo(b).1
    ensures !(key.Esc? || key.UndoChord? || key.RedoChord?) ==>
      r.buf == (if mode.Navigation? then NavigationKey(b, key) else InsertionKey(b, key)).buf
  {
    match key
    case Esc => Reaction(Navigation, b, Quiet, false)
    case UndoChord =>
      var u := Undo(b);
      Reaction(mode, u.1, if u.0 then Undone else NothingToUndo, false)
    case RedoChord =>
      var u := Redo(b);
      Reaction(mode, u.1, if u.0 then Redone else NothingToRedo, false)
    case _ =>
      if mode == Navigation then NavigationKey(b, key) else InsertionKey(b, key)
  }

  /** In Navigation no key but the two history chords touches the text,
      the dirty flag or the history: the editing primitives are out of
      reach there. */
  lemma NavigationNeverEdits(b: Buffer, key: Key)
    requires Valid(b) && key != UndoChord && key != RedoChord
    ensures OnlyCursorMoved(b, Step(Navigation, b, key).buf)
  {
  }

  /** In Insertion a ':' is text, not a prompt. */
  lemma ColonIsTextInInsertion(b: Buffer)
    requires Valid(b)
    ensures var r := Step(Insertion, b, Char(':'));
            !r.prompt && r.mode == Insertion && r.buf == InsertChar(b, ":")
  {
  }

  /** Tab is one history step: a single undo removes all four spaces. */
  lemma TabUndoneInOneStep(b: Buffer)
    requires Valid(b) && |b.undo| < b.limit
    ensures var t := Step(Insertion, b, Tab).buf;
            SameText(Undo(t).1, b) && Undo(t).1.undo == b.undo
  {
    var t := InsertChar(b, TabText);
    assert t.undo == b.undo + [Snap(b)];
  }

  /** A character the loops do not decode as another key: neither Tab,
      Enter ('\n', '\r'), Backspace ('\x08', '\x7f'), Esc, nor the undo
      (Ctrl+Z) and redo (Ctrl+U) chords. Key decoding produces Char only
      for such characters. */
  predicate Plain(c: char) {
    && c != '\t' && c != '\n' && c != '\r' && c != '\U{0008}' && c != '\U{007F}'
    && c != '\U{001B}' && c != '\U{001A}' && c != '\U{0015}'
  }

  /** A typed character lands at the cursor; in Navigation the same key
      leaves the text alone. */
  lemma TypingNeedsInsertion(b: Buffer, c: char)
    requires Valid(b) && Plain(c) && c != 'i' && c != ':'
    ensures Step(Navigation, b, Char(c)) == Reaction(Navigation, b, Quiet, false)
    ensures var r := Step(Insertion, b, Char(c)).buf;
            r.lines[b.cy] == b.lines[b.cy][..b.cx] + [c] + b.lines[b.cy][b.cx..]
  {
    var r := Step(Insertion, b, Char(c)).buf;
    var line := b.lines[b.cy];
    assert r.lines[b.cy] == r.lines[b.cy][..b.cx] + r.lines[b.cy][b.cx..b.cx + 1] + r.lines[b.cy][b.cx + 1..];
  }
}

=== FILE: viewport.dfy ===
/** RawIDE.ensure_cursor_visible: the scroll origin (top_line, left_col) is
    moved just enough for the cursor to fall inside the text window. The
    window has height - 2 rows (a status line and a command line are
    reserved) and width - 1 columns. */
module Viewport {
  import opened TextBuffer

  datatype View = View(top: int, left: int)

  function Abs(x: int): nat {
    if x < 0 then -x else x
  }

  /** One axis: move origin so that pos lies in [origin, origin + span). A
      position before the window becomes its first cell, one past it its
      last cell. */
  function Follow(origin: int, pos: int, span: int): (r: int)
    ensures span >= 1 ==> r <= pos < r + span
    ensures origin <= pos < origin + span ==> r == origin
  {
    if pos < origin then pos
    else if pos >= origin + span then pos - (span - 1)
    else origin
  }

  /** Rows available for text on a terminal of the given height. */
  function TextRows(height: int): int { height - 2 }

  /** Columns available for text on a terminal of the given width. */
  function TextCols(width: int): int { width - 1 }

  predicate Shows(v: View, cx: int, cy: int, height: int, width: int) {
    v.top <= cy < v.top + TextRows(height) && v.left <= cx < v.left + TextCols(width)
  }

  function EnsureCursorVisible(v: View, cx: int, cy: int, height: int, width: int): (r: View)
    ensures height >= 3 && width >= 2 ==> Shows(r, cx, cy, height, width)
    ensures Shows(v, cx, cy, height, width) ==> r == v
  {
    View(Follow(v.top, cy, TextRows(height)), Follow(v.left, cx, TextCols(width)))
  }

  /** The scroll is the smallest that works: every origin that shows pos is
      at least as far from the old origin. */
  lemma FollowIsMinimal(origin: int, pos: int, span: int, other: int)
    requires span >= 1 && other <= pos < other + span
    ensures Abs(Follow(origin, pos, span) - origin) <= Abs(other - origin)
  {
  }

  /** Recomputing for the same cursor does not scroll again. */
  lemma EnsureVisibleIdempotent(v: View, cx: int, cy: int, height: int, width: int)
    requires height >= 3 && width >= 2
    ensures var r := EnsureCursorVisible(v, cx, cy, height, width);
            EnsureCursorVisible(r, cx, cy, height, width) == r
  {
  }

  /** A document that fits in the window is never scrolled vertically,
      wherever in it the cursor is. */
  lemma NoScrollWhenDocumentFits(v: View, b: Buffer, height: int, width: int)
    requires v.top == 0 && Valid(b) && |b.lines| <= TextRows(height)
    ensures EnsureCursorVisible(v, b.cx, b.cy, height, width).top == 0
  {
  }

  /** A 24-row terminal leaves 22 text rows: cursor line 50 below a window
      at the top scrolls it to start at line 29. */
  lemma TwentyFourRowExample()
    ensures EnsureCursorVisible(View(0, 0), 0, 50, 24, 80) == View(29, 0)
  {
  }
}
